=== FILE: README.md ===
# runpod serverless worker: job bookkeeping, modelled in Dafny

This project models the job bookkeeping of the runpod serverless worker:

- how a job is fetched and admitted (`get_job` in `rp_job.py` and `job.py`, `_get_local`, the get-job URL with its `job_in_progress` flag);
- how a handler's outcome is shaped into a job result (`run_job` and `run_job_generator` in `rp_job.py`, the generator function `run_job` in `job.py`);
- how the current-job-id cell is written around a dispatch, in the local API server's `run` and `test_run` endpoints (`rp_fastapi.py`) and in one iteration of the worker loop `start_worker` (`work_loop.py`).

Everything is a pure function over immutable values:

- **`JsonValue`**: the JSON-like Python values a job carries (`Json`, `Obj` for a dict), with Python truthiness (`Truthy`), `d.get(k) is None` (`Absent`) and `str()` (`PyStr`).
- **`HandlerOutcome`**: what one call of the user's handler does: `Returned(v)`, `Raised(failure)`, or `Streamed(partials, stopped)`. A handler is a function from the job dict to its outcome.
- **`WorkerState`**: the worker's state `State(currentJobId, jobList)` and the trace of steps a dispatch takes:
  - `SetJobId` writes the cell;
  - `InvokeRunJob` calls `run_job`;
  - `CallHandler` is the handler actually running;
  - `SendStream` and `SendResult` send to the queue.

  `CellAfter` replays a trace to give the cell's value at any point. `HeldDuring(cell, events, id, step)` says every `step` happens while the cell holds `id`. `Count` counts a step.
- **`RpJob`**, **`Job`**, **`RpFastApi`**, **`WorkLoop`**: one module per source file.

Network replies are inputs: an `Attempt` or `Response` with a status and a decoded body. Results sent to the queue are `SendStream`/`SendResult` steps in the trace. `sys.exit` becomes an `Exit` value. A request whose endpoint raises is the reply `Failed`, which the server answers with a 500.

## How the callers see `job.run_job`

`job.run_job` contains a `yield` (job.py:92), so in Python it is a generator function. Calling it only creates a generator object; the handler runs the first time the generator is advanced. `Job.RunJob` gives what the generator produces when consumed: the records it yields and the value its `finally` returns. Each caller is modelled with the generator object as it really receives it:

- **The worker loop** (work_loop.py:63-68). The `isinstance(..., types.GeneratorType)` test is always true, so the loop always iterates the generator. The handler runs inside the `for`, while the cell holds the job id. Every yielded record is streamed. Then `job_stream` is sent.
  - `job_stream` is a variable of `start_worker`, so it keeps its value across iterations. After a handler that does not stream it is stale, or on a worker that has streamed nothing yet it is unbound.
  - `WorkLoop.Process` carries it as an input and an output (`Turn.jobStream`).
  - An unbound read ends the iteration as `Aborted`, with the cell still holding the id.
- **`WorkerAPI.run`** (rp_fastapi.py:106-115). The generator is created with the cell set. The cell is cleared, and only then does `jsonable_encoder` turn the generator into a list, which runs the handler. The reply is the list of yielded records, `[]` for a handler that does not stream. That `jsonable_encoder` iterates generators is FastAPI's behaviour; FastAPI is not part of this model.
- **`WorkerAPI.test_run`** (rp_fastapi.py:125-132). `job_results["id"] = job.id` subscripts the generator object, which raises a `TypeError`. The request fails, the handler never runs, and the cell is never cleared.

Each of these is reported under "## Findings". The model also gives the evidently intended version of each: `WorkLoop.ProcessIntended`, `RpFastApi.RunIntended` and `RpFastApi.TestRunIntended`. Each consumes run_job inside the bracket and uses its final record (`Job.FinalRecord`): the last record yielded, else the return value.

Other behaviour of the code worth knowing:

- Without a handler, `/runsync` answers `{"error": "Handler not provided"}` with no `id`: `test_run` returns before the stamping line.
- A raising handler's error under `job.py` is `"handler: " + message + " \ntraceback: " + traceback`, not the bare message.
- The real-job route is registered only when `RUNPOD_ENDPOINT_ID` is set and non-empty. Local testing, by contrast, is decided by `is None`, so a get-job variable set to the empty string is not local testing.

## Model

| member | source | states |
|---|---|---|
| `JsonValue.Decimal` | runpod/serverless/work_loop.py:59 | `str()` of an int id is a non-empty digit string with no leading zero |
| `JsonValue.DecimalRoundTrip` | runpod/serverless/work_loop.py:59 | the digits `str()` prints for an id read back to the same number, so the missing-input message names the job exactly |
| `HandlerOutcome.HandlerErrorText` | runpod/serverless/modules/job.py:103 | a caught handler exception's error text starts with `handler: ` followed by the exception's message |
| `HandlerOutcome.WrapAll` | runpod/serverless/modules/job.py:91-92 | partials are wrapped one record per partial, in order, each `{"output": p}` |
| `HandlerOutcome.OutputsOfWrapAll` | runpod/serverless/modules/job.py:91-92 | wrapping loses nothing: the outputs of the wrapped records are the partials |
| `WorkerState.CellAfterAppend` | runpod/serverless/work_loop.py:55-87 | a fact about replaying traces, used by `Dispatch`: the cell after a whole trace is the cell after its second part, replayed from the cell after its first part |
| `WorkerState.CellAfterKept` | runpod/serverless/work_loop.py:56-85 | a fact about replaying traces, used by `Dispatch`: steps other than `set_job_id` leave the cell as it was |
| `WorkerState.Dispatch` | runpod/serverless/modules/rp_fastapi.py:106-112 | after `set_job_id(id)`, every run_job call or handler run before the next `set_job_id` happens while the cell holds `id`. No later part without such a step adds one. The cell ends as the later part leaves it |
| `WorkerState.StreamSentAppend` | runpod/serverless/work_loop.py:65-67 | a fact about traces, used by `WorkLoop.OpeningSends`: the stream partials sent by two consecutive parts of a trace are those of the first followed by those of the second |
| `WorkerState.ResultsSentAppend` | runpod/serverless/work_loop.py:85 | a fact about traces, used by `WorkLoop.OpeningSends`: the results sent by two consecutive parts of a trace are those of the first followed by those of the second |
| `WorkerState.StreamEventsSend` | runpod/serverless/work_loop.py:65-67 | a fact about traces, used by `WorkLoop.OpeningFacts` for the `for` loop's sends: the stream steps for the partials send exactly those partials, in order, and no final result |
| `WorkerState.QuietSteps` | runpod/serverless/modules/rp_fastapi.py:106-112 | a fact about traces, used by `RpFastApi.BracketStepsFacts` and `WorkLoop.OpeningFacts`: writing the cell, calling run_job and running the handler send nothing to the queue |
| `WorkerState.ClosingSteps` | runpod/serverless/work_loop.py:85-87 | a fact about traces, used by `WorkLoop.RanFacts` for the send-and-clear at the end of an iteration: sending the result and then clearing the cell sends that one result and no stream partial |
| `RpJob.EnvStr` | runpod/serverless/modules/rp_job.py:17 | an unset get-job variable reads as the text `None`; a set one reads as its value |
| `RpJob.ReplaceIdWithoutPlaceholder` | runpod/serverless/modules/rp_job.py:17 | filling in the worker id leaves a URL without `$ID` unchanged |
| `RpJob.ReplaceIdAtFront` | runpod/serverless/modules/rp_job.py:17 | a `$ID` at the front of the URL becomes the worker id, and the rest is filled in the same way |
| `RpJob.ReplaceIdSplit` | runpod/serverless/modules/rp_job.py:17 | in a URL whose first `$ID` follows a stretch `a`, `a` is kept, that `$ID` becomes the worker id, and the rest is filled in the same way |
| `RpJob.JobGetUrlBaseFillsId` | runpod/serverless/modules/rp_job.py:17 | `JOB_GET_URL` is `None` when the variable is unset, the variable itself when it has no `$ID`, and otherwise the part before the first `$ID`, the worker id, and the filled-in rest |
| `RpJob.JobGetUrl` | runpod/serverless/modules/rp_job.py:23-34 | the URL extends the base with `&job_in_progress=1` iff the job list is non-empty and with `&job_in_progress=0` iff it is empty |
| `RpJob.JobGetUrlReportsJobList` | runpod/serverless/modules/rp_job.py:33-34 | reading the flag back from the URL tells exactly whether the job list is non-empty |
| `RpJob.MissingFields` | runpod/serverless/modules/rp_job.py:71-76 | the missing-field list is a subsequence of `["id", "input"]` in that order; it contains `id` iff the id is absent or None, and `input` likewise |
| `RpJob.Accept` | runpod/serverless/modules/rp_job.py:51-79 | an attempt yields a job iff the reply is 200 or 400, its body decodes, and neither id nor input is missing; the job is then the body |
| `RpJob.Admit` | runpod/serverless/modules/rp_job.py:91-92 | an accepted job's id is added to the job list |
| `RpJob.GetJobOnce` | runpod/serverless/modules/rp_job.py:37-95 | without retry: 204, a status outside {200, 400}, a failed request or a missing field give None and leave the job list unchanged; otherwise the job is the body and its id joins the job list |
| `RpJob.GetJobRetrying` | runpod/serverless/modules/rp_job.py:37-95 | with retry: the job is the one from the first attempt that yields one, every earlier attempt was rejected, and its id joins the job list; if no attempt yields a job, every attempt was rejected and the job list is unchanged |
| `RpJob.RetryingOnOneAttempt` | runpod/serverless/modules/rp_job.py:49-87 | with a single reply, retrying and not retrying agree |
| `RpJob.Hex4` | runpod/serverless/modules/rp_job.py:130-137 | a `\u` escape carries four characters, each a lower-case hex digit |
| `RpJob.HexRoundTrip` | runpod/serverless/modules/rp_job.py:130-137 | the four digits of a `\u` escape read back as the code unit they were written for |
| `RpJob.EscapeChar` | runpod/serverless/modules/rp_job.py:130-137 | `json.dumps` writes each character as printable ASCII, and a character stays as it is exactly when it is printable and neither quote nor backslash |
| `RpJob.JsonEscape` | runpod/serverless/modules/rp_job.py:130-137 | an escaped string is printable ASCII and at least as long as the original |
| `RpJob.JsonEscapeRoundTrip` | runpod/serverless/modules/rp_job.py:130-137 | a JSON reader (`JsonUnescape`: short escapes, `\u` escapes, surrogate pairs) reads every escaped string back as the original |
| `RpJob.JsonString` | runpod/serverless/modules/rp_job.py:130-137 | a dumped string is a double-quoted literal of printable ASCII |
| `RpJob.JsonStringRoundTrip` | runpod/serverless/modules/rp_job.py:130-137 | the text between a dumped string's quotes reads back as the string |
| `RpJob.ErrorContent` | runpod/serverless/modules/rp_job.py:130-137 | the exception report is ASCII text laid out with indent 4: it opens with `{` and a line break and closes with a line break and `}`. It holds `"error_type": ` with the dumped `<class '...'>`, `"error_message": ` with the dumped message and `"error_traceback": ` with the dumped traceback. It also holds `"host_name"` and `"pod_id"` with the dumped variable, or `unknown` when it is unset |
| `RpJob.ErrorReportKeepsText` | runpod/serverless/modules/rp_job.py:130-137 | the report holds the message and the traceback each as a dumped string that reads back exactly, so neither loses a character |
| `RpJob.RunJob` | runpod/serverless/modules/rp_job.py:98-146 | the result holds exactly one of `output` and `error`. A non-dict output (a bool included) gives exactly `{"output": o}`. A dict with a truthy `refresh_worker` gives `{"stopPod": True, "output": o}` with the flag removed from `o`. Otherwise a truthy `error` gives exactly `{"error": str(error)}`. Any other dict gives `{"output": o}`. An exception gives a result whose only key is `error`, holding the report. `stopPod` appears iff `refresh_worker` was truthy |
| `RpJob.RefreshOverridesError` | runpod/serverless/modules/rp_job.py:113-123 | when both `error` and `refresh_worker` are truthy the refresh rule wins: no top-level error, and the error stays inside the output |
| `RpJob.RunJobGenerator` | runpod/serverless/modules/rp_job.py:149-163 | yields `{"output": p}` for each partial in order, then one `{"error": ...}` exactly when the stream raised; every record holds exactly one of output and error |
| `Job.GetLocal` | runpod/serverless/modules/job.py:19-34 | a missing local file gives None; otherwise the file's job, with the id defaulted to `local_test` when absent, an existing id kept, and nothing else changed |
| `Job.GetJob` | runpod/serverless/modules/job.py:37-73 | an accepted job always has a non-None id. A given test input always runs with its id overwritten to `test_input_provided` and nothing else changed. Otherwise the local file is used iff the queue URL is unset. On the remote path, 204 or any non-200 status gives None, and a 200 body is accepted iff its id is present and not None |
| `Job.LocalIdDefaulting` | runpod/serverless/modules/job.py:30-31 | a local job without an id runs as `local_test`; one whose id is None is rejected |
| `Job.RunJob` | runpod/serverless/modules/job.py:76-110 | consumed to the end, the generator yields a streaming handler's partials as `{"output": p}` in order and nothing for any other handler. Its return value is `{"output": o}` for a returned `o` (a bool included) and `{"error": "handler: " + message + ...}` for an exception. Because the `finally` returns `run_result` on every path, a completed stream returns the placeholder error and a failed one the handler error. The return value always holds exactly one of output and error |
| `Job.FinalRecord` | runpod/serverless/modules/job.py:76-110 | the record a full consumer of run_job ends with: `{"output": v}` for a returned `v`, the handler error for an exception, `{"output": last partial}` for a stream that yielded something, else the return value; always exactly one of output and error |
| `Job.RaisedErrorText` | runpod/serverless/modules/job.py:101-103 | a raising handler's error text begins with `handler: ` followed by the exception's message |
| `Job.StreamedPartialsReadBack` | runpod/serverless/modules/job.py:90-92 | the yielded records read back, in order, to exactly the handler's partials |
| `RpFastApi.TestJob` | runpod/serverless/modules/rp_fastapi.py:44-49 | a test job built without an id has id `test_job`; a given id and the input are kept |
| `RpFastApi.JobDict` | runpod/serverless/modules/rp_fastapi.py:109 | the handler receives a dict of exactly the request's id and input |
| `RpFastApi.NewWorkerApi` | runpod/serverless/modules/rp_fastapi.py:55-66 | the handler is fixed at construction; the endpoint id, read from the environment at module load (line 15), is present iff `RUNPOD_ENDPOINT_ID` is set |
| `RpFastApi.RouteOf` | runpod/serverless/modules/rp_fastapi.py:78-81 | `/runsync` is always routed. `/{id}/realtime` is routed iff the endpoint id is set and non-empty. Every other path is not found |
| `RpFastApi.RoutePaths` | runpod/serverless/modules/rp_fastapi.py:78-81 | the registered paths are `/runsync`, plus the realtime path exactly when the endpoint id is truthy |
| `RpFastApi.RoutedIffRegistered` | runpod/serverless/modules/rp_fastapi.py:78-81 | a path is routed iff it is registered |
| `RpFastApi.NoHandlerResponse` | runpod/serverless/modules/rp_fastapi.py:102-103 | without a handler the reply is exactly `{"error": "Handler not provided"}` and nothing is done |
| `RpFastApi.Run` | runpod/serverless/modules/rp_fastapi.py:97-115 | as written. Without a handler: the no-handler error, with nothing changed. With one: run_job is called once while the cell holds the job id. The cell is then cleared. Only after that does the handler run, once, during encoding. The reply is the list of yielded records, `[]` for a handler that does not stream |
| `RpFastApi.TestRun` | runpod/serverless/modules/rp_fastapi.py:117-134 | as written. Without a handler: the no-handler error. With one: run_job is called while the cell holds the job id. The stamping line then raises, so the request fails, the handler never runs, and the cell keeps the job id |
| `RpFastApi.Bracketed` | runpod/serverless/modules/rp_fastapi.py:106-112 | the intended bracket: run_job is called and the handler runs, once each, while the cell holds the job id. The cell is None afterwards. Nothing goes to the queue, and the reply is run_job's final record |
| `RpFastApi.RunIntended` | runpod/serverless/modules/rp_fastapi.py:97-115 | `run` as intended: the handler runs once while the cell holds the job id, the cell ends None, and the reply holds exactly one of output and error, `{"output": v}` for a returned `v` |
| `RpFastApi.TestRunIntended` | runpod/serverless/modules/rp_fastapi.py:117-134 | `test_run` as intended: as `RunIntended`, and the reply is the final record with `id` set to the job id, replacing any `id` it had, nothing else changed; without a handler no `id` is added |
| `RpFastApi.TestRunRepeatable` | runpod/serverless/modules/rp_fastapi.py:117-134 | as intended, sending the same test job twice gives the same reply and the same state |
| `RpFastApi.DefaultIdIsStamped` | runpod/serverless/modules/rp_fastapi.py:117-134 | for a test request without an id, which defaults to `test_job` (line 48): as written the request fails and the cell keeps `test_job`; as intended it is answered with `id` `test_job` and the cell is cleared |
| `RpFastApi.RunAnswersEmptyList` | runpod/serverless/modules/rp_fastapi.py:106-115 | for a handler returning `{"x": 1}`: as written `run` answers `[]` and the handler runs with the cell already None. As intended it answers `{"output": {"x": 1}}` with the handler run while the cell holds the id |
| `WorkLoop.IsLocalTesting` | runpod/serverless/work_loop.py:31-35 | local testing holds iff `RUNPOD_WEBHOOK_GET_JOB` is unset, agreeing with `_IS_LOCAL_TEST` |
| `WorkLoop.WithRefresh` | runpod/serverless/work_loop.py:71-73 | with a truthy `refresh_worker` the sent result gains `stopPod = True` and is otherwise unchanged; with a falsy one it is unchanged |
| `WorkLoop.ExitFor` | runpod/serverless/work_loop.py:89-95 | outside local testing the loop continues; in local testing it exits with 1 iff the sent result has an `error` key, else with 0 |
| `WorkLoop.OpeningFacts` | runpod/serverless/work_loop.py:55-67 | `set_job_id`, the run_job call, the handler run inside the `for`, and the stream sends call run_job and the handler once each, while the cell holds the id. They stream exactly the records and send no result |
| `WorkLoop.Ran` | runpod/serverless/work_loop.py:55-87 | the cell is set, run_job and the handler run once each while it holds the id, the records go to the stream endpoint, the result is sent (stamped when refreshing), the cell is cleared, and the exit follows from the sent result |
| `WorkLoop.Unbound` | runpod/serverless/work_loop.py:63-68 | when the generator yields nothing and `job_stream` was never bound, the iteration dies at :68. The cell still holds the id, and nothing is sent |
| `WorkLoop.Unrunnable` | runpod/serverless/work_loop.py:55-61 | a job without input sets the cell, never calls run_job or the handler, sends its error and clears the cell |
| `WorkLoop.Consumed` | runpod/serverless/work_loop.py:63-95 | for a job with input, the records are streamed. Then the last record, else the `job_stream` an earlier iteration left, is sent stamped and stays in `job_stream`. The iteration dies with the cell set iff nothing was yielded and `job_stream` was never bound |
| `WorkLoop.Process` | runpod/serverless/work_loop.py:55-95 | as written. The first step sets the cell to the job id. run_job and the handler are called once iff the job has an input, while the cell holds the id. The yielded records are streamed. The iteration dies iff the job has an input, nothing was yielded and `job_stream` was unbound. It otherwise sends one result, clears the cell and exits by that result. For a job with input it leaves the sent record in `job_stream`; a job without input leaves `job_stream` as it was |
| `WorkLoop.ProcessIntended` | runpod/serverless/work_loop.py:55-95 | the iteration as intended: it never dies. The handler runs once while the cell holds the id, the records are streamed, and the sent result is the missing-input error or run_job's final record, stamped when refreshing. The cell ends None |
| `WorkLoop.Iterate` | runpod/serverless/work_loop.py:48-95 | a None job changes nothing, sends nothing and continues. The job list is never touched. For a fetched job, the cell ends holding its id iff the iteration died |
| `WorkLoop.NoInputIsReported` | runpod/serverless/work_loop.py:58-61 | a job without input sends exactly `{"error": "Job <id> has no input parameter. Unable to run."}` (with `stopPod` when refreshing). It streams nothing, the handler is not called, and `job_stream` is untouched |
| `WorkLoop.StreamIsForwarded` | runpod/serverless/work_loop.py:63-68 | a streaming handler's partials go to the stream endpoint in order as `{"output": p}`. The last one is then sent as the final result and stays in `job_stream` |
| `WorkLoop.ReturnedIsNeverSent` | runpod/serverless/work_loop.py:63-68 | as written, a handler that does not stream never has its result sent. The loop resends the record an earlier job left in `job_stream`, or dies with the cell set when there is none |
| `WorkLoop.FirstReturnedJobAborts` | runpod/serverless/work_loop.py:63-68 | the counterexample: in local testing the first job `{"id": "j", "input": 1}`, with a handler returning `{"x": 1}`, sends nothing and dies with the cell holding `"j"`. As intended it sends `{"output": {"x": 1}}` and exits with 0 |
| `WorkLoop.ReturnedIsSent` | runpod/serverless/work_loop.py:62-95 | as intended, a handler that does not stream has run_job's return value sent once as the final result; nothing is streamed and the exit code follows from it |
| `WorkLoop.WrittenMatchesIntended` | runpod/serverless/work_loop.py:55-95 | the loop as written and as intended do the same for every job without input and every job whose handler streams at least one partial |

## Findings

| source | as written | input that shows it | evidently intended | confidence | as-written member | corrected member |
|---|---|---|---|---|---|---|
| runpod/serverless/work_loop.py:63-68 | `run_job` is a generator function, so the generator test is always true. A handler that does not stream yields nothing, and `job_result = job_stream` reads a variable that is unbound on the worker's first job and stale after an earlier streamed job | local testing, first job `{"id": "j", "input": 1}`, handler returning `{"x": 1}`: nothing is sent, the cell keeps `"j"`, and the loop dies at :68 | send `{"output": {"x": 1}}`, clear the cell, exit with 0 | high; not executed | `WorkLoop.Process`, `WorkLoop.ReturnedIsNeverSent`, `WorkLoop.FirstReturnedJobAborts` | `WorkLoop.ProcessIntended`, `WorkLoop.ReturnedIsSent`, `WorkLoop.WrittenMatchesIntended` |
| runpod/serverless/modules/rp_fastapi.py:125-132 | `job_results["id"] = job.id` subscripts the generator object `run_job` returns, which raises a `TypeError` | any handler, test job `{"input": 1}`: the request fails, the handler never runs, and the cell keeps `test_job` | answer the job's result with `id` `test_job` and clear the cell | high; not executed | `RpFastApi.TestRun`, `RpFastApi.DefaultIdIsStamped` | `RpFastApi.TestRunIntended`, `RpFastApi.TestRunRepeatable` |
| runpod/serverless/modules/rp_fastapi.py:106-115 | the generator is created inside the bracket but consumed by `jsonable_encoder` after `set_job_id(None)`, so the handler runs with the cell cleared, and the reply is the list of yielded records | handler returning `{"x": 1}`: the reply is `[]`, and the handler runs while the cell is None | run the handler while the cell holds the job id and answer `{"output": {"x": 1}}` | high; not executed | `RpFastApi.Run`, `RpFastApi.RunAnswersEmptyList` | `RpFastApi.RunIntended`, `RpFastApi.Bracketed` |

## Left out

- The HTTP layer: aiohttp sessions, GET and POST, `retry_send_result` and its backoff, `send_result` and `send_stream_result`. Replies are inputs and a sent result is a trace step holding the dict itself, without `json.dumps`.
- The FastAPI and uvicorn server, and pydantic validation. Request bodies arrive as validated `JobRequest` values. `jsonable_encoder` is taken to turn the run_job generator into the list of its records and to leave JSON values as they are. An endpoint that raises is the reply `Failed`, and the 500 body is not modelled.
- `HeartbeatSender` and `start_ping`: a background thread with timers, whose code is not part of this model. Concurrent overlapping requests on the job-id cell are left out as well.
- worker_state.py, which holds `set_job_id`, `Jobs` and `WORKER_ID`, is not part of this model. The cell is a plain value, the job list is a set, and the worker id is a parameter.
- `check_return_size`, `rp_debugger` with the float `ready_delay_ms`, logging and timing. These are foreign code, floats and side channels. The worker config is taken to have `rp_debugger` unset.
- Dict insertion order, so JSON key order, is not modelled: a dict is a map.
- `JsonValue.Json`: a JSON number with a fraction or exponent is an exact real (`JFloat`), not an IEEE double. Rounding is lost, and so are the `NaN`, `Infinity` and `-Infinity` that Python's `json.loads` accepts. `NaN` is truthy in Python, so a `refresh_worker: NaN` would stamp `stopPod`, and the model cannot state that. A string is a sequence of Dafny `char`s, which are Unicode scalar values. So the lone surrogate that `json.loads("\"\\ud800\"")` yields cannot be represented either; `JsonUnescape` rejects such an escape.
- `JsonValue.PyStr`: renders floats, lists and dicts as a type tag rather than Python's repr. It is exact for None, bool, int and str.
- `RpJob.RunJob`: a handler that returns a generator is outside its domain (`requires !o.Streamed?`). The generator object would be wrapped as `output` and is not a JSON value.
- `RpJob.ErrorContent`: states that each of the five members occurs in the report, not their order. The traceback text is an opaque input, and `str(type(err))` is taken to be `<class '` + the class name + `'>`.
- `RpJob.RunJobGenerator`: takes the stream as observed by `async for`. A handler that raises before streaming, or whose awaited value is not async-iterable, is the stream that yields nothing and then raises. The TypeError's own message is not modelled.
- `Job.RunJob`: the handler is taken to be synchronous. job.py:87 calls it without awaiting, so an `async def` handler would give `{"output": <coroutine object>}` and its body would never run. A coroutine object is not a JSON value, so the model has no outcome for it. `Job.FinalRecord`, `WorkLoop.ProcessIntended`, `RpFastApi.RunIntended` and `RpFastApi.TestRunIntended` inherit this. Only `RpJob.RunJob` awaits a coroutine handler (rp_job.py:107).
- `Job.GetLocal`: a malformed test_input.json makes `json.loads` raise out of `_get_local`, and `get_job` turns that into None. The model returns None directly.
- Non-dict JSON where a dict is expected is left out. This covers a test input, local file contents or reply body that decodes to a list or scalar, which makes Python fail with a TypeError or AttributeError. `rp_args["test_input"]` is taken to be a dict.
- `WorkLoop.Iterate`: models one loop iteration. The infinite `while True` is the repetition of `Iterate`, with `job_stream` passed from one turn to the next. No lemma is stated over sequences of iterations.
- `WorkLoop.Unbound`: the `UnboundLocalError` at work_loop.py:68 ends the iteration as `Aborted`. The model does not follow the exception out of `start_worker`.
- That the handler is fixed and no request path modifies `config` holds by construction. The endpoints receive the `WorkerApi` value and return none, so no lemma states it.

=== FILE: environment.dfy ===
/** The process environment as the worker reads it. */
module Environment {
  /** `os.environ`: variable names to their values. */
  type Env = map<string, string>

  /** The variable holding the queue's get-job URL; unset means local testing. */
  const GetJobEnvVar := "RUNPOD_WEBHOOK_GET_JOB"

  /** `os.environ.get(name, default)`. */
  function EnvGet(env: Env, name: string, default: string): string {
    if name in env then env[name] else default
  }
}

=== FILE: handler_outcome.dfy ===
/** What a user handler does when a job runner calls it, and the two result
    records every runner builds from it. The handler itself is opaque user
    code: the model sees only its outcome on a given job. */
module HandlerOutcome {
  import opened JsonValue

  /** A Python exception as a runner observes it: the class as `str(type(err))`
      names it, `str(err)`, and the text of `traceback.format_exc()`. */
  datatype Failure = Failure(className: string, message: string, traceback: string)

  /** One call of the handler on one job:
      - `Returned(v)`: the handler returned `v`. The runner of rp_job.py awaits
        a coroutine handler first, so there `v` is the awaited value; the
        runner of job.py calls the handler without awaiting it, so there a
        handler is taken to be synchronous;
      - `Raised(f)`: the call raised `f` before producing anything;
      - `Streamed(ps, f)`: the handler returned a generator that yielded the
        partials `ps` in order and then stopped normally (`None`) or raised `f` (`Some(f)`). */
  datatype Outcome =
    | Returned(value: Json)
    | Raised(failure: Failure)
    | Streamed(partials: seq<Json>, stopped: Option<Failure>)

  /** The registered handler, as a function from the job dict to its outcome. */
  type HandlerFn = Obj -> Outcome

  const HandlerErrorPrefix := "handler: "

  /** The error text both generator runners build from a caught exception:
      the prefix, `str(err)`, and the traceback. */
  function HandlerErrorText(f: Failure): (s: string)
    ensures |s| >= |HandlerErrorPrefix| + |f.message|
    ensures s[..|HandlerErrorPrefix|] == HandlerErrorPrefix
    ensures s[|HandlerErrorPrefix|..|HandlerErrorPrefix| + |f.message|] == f.message
  {
    HandlerErrorPrefix + f.message + " \ntraceback: " + f.traceback
  }

  /** `{"output": p}` */
  function Wrap(p: Json): Obj {
    map["output" := p]
  }

  /** `{"error": s}` */
  function ErrorRecord(s: string): (r: Obj)
    ensures r.Keys == {"error"} && r["error"] == JStr(s)
  {
    map["error" := JStr(s)]
  }

  /** Each partial wrapped as `{"output": p}`, in order. */
  function WrapAll(ps: seq<Json>): (rs: seq<Obj>)
    ensures |rs| == |ps|
    ensures forall i :: 0 <= i < |ps| ==> rs[i] == Wrap(ps[i])
  {
    seq(|ps|, i requires 0 <= i < |ps| => Wrap(ps[i]))
  }

  /** The `"output"` field of each record, in order. */
  function Outputs(rs: seq<Obj>): seq<Json>
    requires forall i :: 0 <= i < |rs| ==> "output" in rs[i]
  {
    seq(|rs|, i requires 0 <= i < |rs| => rs[i]["output"])
  }

  /** Wrapping loses nothing: the partials can be read back from the records. */
  lemma OutputsOfWrapAll(ps: seq<Json>)
    ensures forall i :: 0 <= i < |ps| ==> "output" in WrapAll(ps)[i]
    ensures Outputs(WrapAll(ps)) == ps
  {
  }
}

=== FILE: job.dfy ===
/** The worker-loop job helpers of job.py: where the next job comes from
    (`get_job`, `_get_local`) and what `run_job` yields and returns. */
module Job {
  import opened JsonValue
  import opened HandlerOutcome
  import opened Environment
  import opened WorkerState

  const LocalTestId := "local_test"
  const TestInputId := "test_input_provided"

  /** The result `run_job` starts from, returned when nothing replaces it. */
  const Placeholder: Obj := ErrorRecord("Failed to return job output or capture error.")

  /** `_IS_LOCAL_TEST`: the queue URL variable is unset. */
  predicate IsLocalTest(env: Env) {
    GetJobEnvVar !in env
  }

  // ---------------------------------------------------------------- get_job

  /** The local test file: missing, present but not valid JSON, or a dict. */
  datatype LocalFile = NoFile | Malformed | Contents(job: Obj)

  /** `_get_local()`: the contents of test_input.json with a default id.
      A missing file gives None. A malformed one makes `json.loads` raise out
      of `_get_local`; `get_job` turns that into None, and so does the model. */
  function GetLocal(file: LocalFile): (job: Option<Obj>)
    ensures job.Some? <==> file.Contents?
    ensures job.Some? ==> job.value.Keys == file.job.Keys + {"id"}
    ensures job.Some? ==> job.value - {"id"} == file.job - {"id"}
    ensures job.Some? ==> job.value["id"] == if "id" in file.job then file.job["id"] else JStr(LocalTestId)
  {
    match file
    case NoFile => None
    case Malformed => None
    case Contents(inputs) =>
      if "id" !in inputs then Some(inputs["id" := JStr(LocalTestId)]) else Some(inputs)
  }

  /** The reply to the single GET of the remote path: its status and its
      body when that decodes to a dict (None when `response.json()` raises). */
  datatype Response = Response(status: int, body: Option<Obj>)

  /** `config["rp_args"].get("test_input")` is a truthy dict. */
  predicate TestInputGiven(testInput: Option<Obj>) {
    testInput.Some? && |testInput.value| > 0
  }

  /** `get_job(session, config)`: a given test input (its id overwritten),
      else the local file when the queue URL is unset, else the remote reply.
      A 204 or any other non-200 reply gives None, and so does a job whose id
      is absent or None. Exceptions inside are caught and leave None. */
  function GetJob(testInput: Option<Obj>, env: Env, file: LocalFile, remote: Response): (job: Option<Obj>)
    ensures job.Some? ==> !Absent(job.value, "id")
    ensures TestInputGiven(testInput) ==>
      && job.Some?
      && job.value["id"] == JStr(TestInputId)
      && job.value - {"id"} == testInput.value - {"id"}
    ensures !TestInputGiven(testInput) && IsLocalTest(env) ==>
      (job.Some? <==> file.Contents? && ("id" in file.job ==> file.job["id"] != JNull))
    ensures !TestInputGiven(testInput) && IsLocalTest(env) && job.Some? ==> job == GetLocal(file)
    ensures !TestInputGiven(testInput) && !IsLocalTest(env) && remote.status != 200 ==> job.None?
    ensures !TestInputGiven(testInput) && !IsLocalTest(env) && remote.status == 200 ==>
      (job.Some? <==> remote.body.Some? && !Absent(remote.body.value, "id"))
      && (job.Some? ==> job == remote.body)
  {
    var next :=
      if TestInputGiven(testInput) then Some(testInput.value["id" := JStr(TestInputId)])
      else if IsLocalTest(env) then GetLocal(file)
      else if remote.status == 204 then None
      else if remote.status != 200 then None
      else remote.body;
    if next.Some? && Absent(next.value, "id") then None else next
  }

  /** A local test file without an id runs as `local_test`; one whose id is
      None is rejected rather than defaulted. */
  lemma LocalIdDefaulting(inputs: Obj, env: Env, remote: Response)
    requires IsLocalTest(env)
    ensures "id" !in inputs ==> GetJob(None, env, Contents(inputs), remote) == Some(inputs["id" := JStr(LocalTestId)])
    ensures "id" in inputs && inputs["id"] == JNull ==> GetJob(None, env, Contents(inputs), remote).None?
  {
  }

  // ---------------------------------------------------------------- run_job

  /** What the generator function `run_job` produces when consumed to the
      end: the records it yields, in order, and its return value. */
  datatype GenRun = GenRun(yielded: seq<Obj>, returned: Obj)

  /** `run_job(handler, job)`. A streaming handler's partials are yielded as
      `{"output": p}`; any other output `o` (a bool included) is returned as
      `{"output": o}`; an exception is returned as an error carrying the
      message. The `finally` clause's `return run_result` decides the return
      value on every path, so a completed stream returns the placeholder.
      The handler is called without being awaited, so it is taken to be a
      synchronous function. */
  function RunJob(o: Outcome): (run: GenRun)
    ensures OutputXorError(run.returned) && |run.returned| == 1
    ensures forall i :: 0 <= i < |run.yielded| ==> run.yielded[i].Keys == {"output"}
    ensures !o.Streamed? ==> run.yielded == []
    ensures o.Streamed? ==> run.yielded == WrapAll(o.partials)
    ensures o.Returned? ==> run.returned == Wrap(o.value)
    ensures o.Raised? ==> run.returned == ErrorRecord(HandlerErrorText(o.failure))
    ensures o.Streamed? && o.stopped.Some? ==> run.returned == ErrorRecord(HandlerErrorText(o.stopped.value))
    ensures o.Streamed? && o.stopped.None? ==> run.returned == Placeholder
  {
    var runResult := Placeholder;
    match o
    case Raised(f) => GenRun([], ErrorRecord(HandlerErrorText(f)))
    case Streamed(partials, stopped) =>
      // the bare `return` after the loop is superseded by the `finally`
      var finalResult := if stopped.Some? then ErrorRecord(HandlerErrorText(stopped.value)) else runResult;
      GenRun(WrapAll(partials), finalResult)
    case Returned(output) =>
      // the bool branch and the general branch build the same record
      GenRun([], Wrap(output))
  }

  /** What a caller that consumes `run_job` to the end and keeps one record
      would report: the last record yielded, or the return value when nothing
      was yielded. No caller in the source does this (each treats the
      generator object differently); it is the evidently intended result. */
  function FinalRecord(o: Outcome): (r: Obj)
    ensures OutputXorError(r)
    ensures o.Returned? ==> r == Wrap(o.value)
    ensures o.Raised? ==> r == ErrorRecord(HandlerErrorText(o.failure))
    ensures o.Streamed? && |o.partials| > 0 ==> r == Wrap(o.partials[|o.partials| - 1])
    ensures o.Streamed? && |o.partials| == 0 ==> r == RunJob(o).returned
  {
    var run := RunJob(o);
    if |run.yielded| > 0 then run.yielded[|run.yielded| - 1] else run.returned
  }

  /** A raising handler's error names it as the handler's and carries its message. */
  lemma RaisedErrorText(f: Failure)
    ensures var e := RunJob(Raised(f)).returned["error"];
      && e.JStr?
      && e.s[..|HandlerErrorPrefix| + |f.message|] == HandlerErrorPrefix + f.message
  {
    var e := HandlerErrorText(f);
    assert e[..|HandlerErrorPrefix| + |f.message|] == HandlerErrorPrefix + f.message;
  }

  /** Streaming loses nothing: the yielded records read back to the partials. */
  lemma StreamedPartialsReadBack(partials: seq<Json>, stopped: Option<Failure>)
    ensures var ys := RunJob(Streamed(partials, stopped)).yielded;
      && (forall i :: 0 <= i < |ys| ==> "output" in ys[i])
      && Outputs(ys) == partials
  {
    OutputsOfWrapAll(partials);
  }
}

=== FILE: json_value.dfy ===
/** The Python values that cross the job API: the JSON-like subset (None,
    bool, int, float, str, list, dict with string keys), with Python's
    truthiness and `str()`, and Python's `None` as an `Option`. */
module JsonValue {

  /** Python's optional value: `None` or a present value. */
  datatype Option<+T> = None | Some(value: T) {

    /** `x if x is not None else default` */
    function GetOr(default: T): T {
      match this
      case Some(v) => v
      case None => default
    }
  }

  /** A JSON-like Python value. A float is an exact real; a dict is a map,
      so its insertion order is not part of the value. */
  datatype Json =
    | JNull
    | JBool(b: bool)
    | JInt(i: int)
    | JFloat(r: real)
    | JStr(s: string)
    | JList(items: seq<Json>)
    | JObject(fields: map<string, Json>)

  /** A Python dict with string keys: a job, a job result, a request body. */
  type Obj = map<string, Json>

  /** Python truthiness, `bool(v)`. */
  predicate Truthy(v: Json) {
    match v
    case JNull => false
    case JBool(b) => b
    case JInt(i) => i != 0
    case JFloat(r) => r != 0.0
    case JStr(s) => |s| > 0
    case JList(items) => |items| > 0
    case JObject(fields) => |fields| > 0
  }

  /** `d.get(k, False)` used as a condition. */
  predicate FlagSet(d: Obj, k: string) {
    k in d && Truthy(d[k])
  }

  /** `d.get(k, None) is None`: the key is absent or bound to None. */
  predicate Absent(d: Obj, k: string) {
    k !in d || d[k] == JNull
  }

  /** A job result holds exactly one of `"output"` and `"error"`. */
  predicate OutputXorError(r: Obj) {
    ("output" in r) != ("error" in r)
  }

  /** Python's `str(v)`. Exact for None, bool, int and str; a float, list or
      dict is rendered as a type tag instead of Python's repr. */
  function PyStr(v: Json): string {
    match v
    case JNull => "None"
    case JBool(b) => if b then "True" else "False"
    case JInt(i) => if i < 0 then "-" + Decimal(-i) else Decimal(i)
    case JFloat(_) => "<float>"
    case JStr(s) => s
    case JList(_) => "<list>"
    case JObject(_) => "<dict>"
  }

  /** The decimal digits of `n`, most significant first, without leading zeros. */
  function Decimal(n: nat): (s: string)
    ensures |s| > 0
    ensures forall k :: 0 <= k < |s| ==> '0' <= s[k] <= '9'
    ensures |s| > 1 ==> s[0] != '0'
    decreases n
  {
    var d := "0123456789"[n % 10];
    if n < 10 then [d] else Decimal(n / 10) + [d]
  }

  /** Reads a digit string back as a number: the inverse of `Decimal`. */
  function DigitsValue(s: string): nat
    requires forall k :: 0 <= k < |s| ==> '0' <= s[k] <= '9'
    decreases |s|
  {
    if |s| == 0 then 0
    else 10 * DigitsValue(s[..|s| - 1]) + ((s[|s| - 1] as int) - ('0' as int))
  }

  /** Rendering an id with `str()` loses nothing: the digits read back to the number. */
  lemma {:induction false} DecimalRoundTrip(n: nat)
    ensures DigitsValue(Decimal(n)) == n
    decreases n
  {
    var s := Decimal(n);
    if n >= 10 {
      DecimalRoundTrip(n / 10);
      assert s[..|s| - 1] == Decimal(n / 10);
    }
  }
}

=== FILE: rp_fastapi.dfy ===
/** The local API server of rp_fastapi.py: its routes and its two dispatch
    endpoints, each bracketing run_job with writes of the job-id cell.
    `job.run_job` is a generator function, so both endpoints receive a
    generator object. `run` returns it to the encoder, which consumes it (and
    so runs the handler) after the cell was cleared and answers the list of
    yielded records; `test_run` subscripts it, which raises. `Run` and
    `TestRun` model that as written; `RunIntended` and `TestRunIntended`
    answer with run_job's final record, the handler running inside the
    bracket. */
module RpFastApi {
  import opened JsonValue
  import opened HandlerOutcome
  import opened Environment
  import opened WorkerState
  import Job

  const EndpointEnvVar := "RUNPOD_ENDPOINT_ID"
  const RunSyncPath := "/runsync"
  const TestJobDefaultId := "test_job"
  const NoHandlerError := "Handler not provided"

  /** A request body after validation: `Job` and `TestJob` both carry a
      string id and an input. */
  datatype JobRequest = JobRequest(id: string, input: Json)

  /** `TestJob(...)`: the id defaults to `test_job` when the body omits it. */
  function TestJob(id: Option<string>, input: Json): (job: JobRequest)
    ensures job.id == id.GetOr(TestJobDefaultId)
    ensures job.input == input
  {
    match id
    case None => JobRequest(TestJobDefaultId, input)
    case Some(given) => JobRequest(given, input)
  }

  /** `job.__dict__`, the dict handed to the handler. */
  function JobDict(job: JobRequest): (d: Obj)
    ensures d.Keys == {"id", "input"} && d["id"] == JStr(job.id) && d["input"] == job.input
  {
    map["id" := JStr(job.id), "input" := job.input]
  }

  /** `WorkerAPI(handler)`: the handler, fixed here, and the endpoint id
      read from the environment. Starting the heartbeat is not modelled. */
  datatype WorkerApi = WorkerApi(handler: Option<HandlerFn>, endpointId: Option<string>)

  function NewWorkerApi(handler: Option<HandlerFn>, env: Env): (api: WorkerApi)
    ensures api.handler == handler
    ensures api.endpointId.Some? <==> EndpointEnvVar in env
    ensures api.endpointId.Some? ==> api.endpointId.value == env[EndpointEnvVar]
  {
    WorkerApi(handler, if EndpointEnvVar in env then Some(env[EndpointEnvVar]) else None)
  }

  /** The path of the real-job route for an endpoint id. */
  function RealtimePath(endpointId: string): string {
    "/" + endpointId + "/realtime"
  }

  /** `if RUNPOD_ENDPOINT_ID:` — set and non-empty. */
  predicate RealtimeEnabled(endpointId: Option<string>) {
    endpointId.Some? && |endpointId.value| > 0
  }

  datatype Endpoint = RealtimeEndpoint | RunSyncEndpoint

  /** The route table built in `__init__`: the real-job route only when the
      endpoint id is truthy, `/runsync` always. */
  function RouteOf(endpointId: Option<string>, path: string): (e: Option<Endpoint>)
    ensures path == RunSyncPath ==> e == Some(RunSyncEndpoint)
    ensures e == Some(RealtimeEndpoint) <==> RealtimeEnabled(endpointId) && path == RealtimePath(endpointId.value)
    ensures e.None? <==> path != RunSyncPath && !(RealtimeEnabled(endpointId) && path == RealtimePath(endpointId.value))
  {
    if RealtimeEnabled(endpointId) && path == RealtimePath(endpointId.value) then
      assert |path| > |RunSyncPath|;
      Some(RealtimeEndpoint)
    else if path == RunSyncPath then Some(RunSyncEndpoint)
    else None
  }

  /** The paths the router answers. */
  function RoutePaths(endpointId: Option<string>): (paths: set<string>)
    ensures RunSyncPath in paths
    ensures RealtimeEnabled(endpointId) ==> paths == {RunSyncPath, RealtimePath(endpointId.value)}
    ensures !RealtimeEnabled(endpointId) ==> paths == {RunSyncPath}
  {
    if RealtimeEnabled(endpointId) then {RunSyncPath, RealtimePath(endpointId.value)} else {RunSyncPath}
  }

  /** The route table and the path set describe the same routes. */
  lemma RoutedIffRegistered(endpointId: Option<string>, path: string)
    ensures RouteOf(endpointId, path).Some? <==> path in RoutePaths(endpointId)
  {
  }

  /** How an endpoint answers: with a body, or by raising, which the server
      turns into a 500 reply. */
  datatype Reply = Answered(body: Json) | Failed

  /** What one request does: the state after it, its steps, its reply. */
  datatype Served = Served(state: State, events: seq<Event>, reply: Reply)

  /** The reply both endpoints give when no handler was registered. */
  function NoHandlerResponse(st: State): (s: Served)
    ensures s.state == st && s.events == []
    ensures s.reply.Answered? && s.reply.body.JObject?
    ensures s.reply.body.fields.Keys == {"error"} && s.reply.body.fields["error"] == JStr("Handler not provided")
  {
    Served(st, [], Answered(JObject(ErrorRecord(NoHandlerError))))
  }

  /** The yielded records as the JSON list the encoder makes of them. */
  function RecordList(records: seq<Obj>): (j: Json)
    ensures j.JList? && |j.items| == |records|
    ensures forall i :: 0 <= i < |records| ==> j.items[i] == JObject(records[i])
  {
    JList(seq(|records|, i requires 0 <= i < |records| => JObject(records[i])))
  }

  /** `WorkerAPI.run(job)` as written: without a handler, the fixed error and
      no change. With one, the cell is set, run_job creates the generator, the
      cell is cleared, and only then does `jsonable_encoder` iterate the
      generator, which runs the handler; the reply is the list of records it
      yielded, empty for a handler that does not stream. */
  function Run(api: WorkerApi, st: State, job: JobRequest): (s: Served)
    ensures api.handler.None? ==> s == NoHandlerResponse(st)
    ensures api.handler.Some? ==>
      var records := Job.RunJob(api.handler.value(JobDict(job))).yielded;
      && s.state == st.(currentJobId := None)
      && CellAfter(st.currentJobId, s.events) == None
      && HeldDuring(st.currentJobId, s.events, JStr(job.id), InvokeRunJob)
      && Count(s.events, InvokeRunJob) == 1 && Count(s.events, CallHandler) == 1
      && |s.events| == 4 && s.events[3] == CallHandler && CellAfter(st.currentJobId, s.events[..3]) == None
      && s.reply == Answered(RecordList(records))
    ensures api.handler.Some? && !api.handler.value(JobDict(job)).Streamed? ==> s.reply == Answered(JList([]))
    ensures s.state.jobList == st.jobList
  {
    if api.handler.None? then NoHandlerResponse(st)
    else
      RunStepsFacts(st.currentJobId, JStr(job.id));
      var records := Job.RunJob(api.handler.value(JobDict(job))).yielded;
      Served(st.(currentJobId := None), RunSteps(JStr(job.id)), Answered(RecordList(records)))
  }

  /** The steps of `run` as written: set the cell, create the generator,
      clear the cell, and then the handler runs as the encoder iterates. */
  function RunSteps(id: Json): seq<Event> {
    [SetJobId(Some(id)), InvokeRunJob, SetJobId(None), CallHandler]
  }

  /** In `run`'s steps the run_job call sees the id, and the one handler run
      comes after the clear. */
  lemma RunStepsFacts(cell: Option<Json>, id: Json)
    ensures var events := RunSteps(id);
      && CellAfter(cell, events) == None
      && HeldDuring(cell, events, id, InvokeRunJob)
      && Count(events, InvokeRunJob) == 1 && Count(events, CallHandler) == 1
      && CellAfter(cell, events[..3]) == None
  {
    var events := RunSteps(id);
    assert events == [SetJobId(Some(id))] + [InvokeRunJob] + [SetJobId(None), CallHandler];
    Dispatch(cell, id, [InvokeRunJob], [SetJobId(None), CallHandler], InvokeRunJob);
    assert [SetJobId(None), CallHandler][..1] == [SetJobId(None)];
    assert events[..3] == [SetJobId(Some(id)), InvokeRunJob, SetJobId(None)];
    assert events == events[..3] + [CallHandler] && [CallHandler][1..] == [];
    CountAppend(events[..3], [CallHandler], CallHandler);
    CountAbsent(events[..3], CallHandler);
  }

  /** `WorkerAPI.test_run(job)` as written: without a handler, the fixed
      error and no change. With one, the cell is set and run_job creates the
      generator, then `job_results["id"] = job.id` raises a TypeError on the
      generator object: the request fails, no id is stamped, the handler never
      runs, and the cell keeps the job's id. */
  function TestRun(api: WorkerApi, st: State, job: JobRequest): (s: Served)
    ensures api.handler.None? ==> s == NoHandlerResponse(st)
    ensures api.handler.Some? ==>
      && s.reply == Failed
      && s.state == st.(currentJobId := Some(JStr(job.id)))
      && CellAfter(st.currentJobId, s.events) == Some(JStr(job.id))
      && HeldDuring(st.currentJobId, s.events, JStr(job.id), InvokeRunJob)
      && Count(s.events, InvokeRunJob) == 1
      && Count(s.events, CallHandler) == 0
    ensures s.state.jobList == st.jobList
  {
    if api.handler.None? then NoHandlerResponse(st)
    else
      TestRunStepsFacts(st.currentJobId, JStr(job.id));
      Served(st.(currentJobId := Some(JStr(job.id))), TestRunSteps(JStr(job.id)), Failed)
  }

  /** The steps of `test_run` as written: set the cell and create the
      generator; the stamping line raises before anything else happens. */
  function TestRunSteps(id: Json): seq<Event> {
    [SetJobId(Some(id)), InvokeRunJob]
  }

  /** In `test_run`'s steps the run_job call sees the id, the handler never
      runs, and the cell is left holding the id. */
  lemma TestRunStepsFacts(cell: Option<Json>, id: Json)
    ensures var events := TestRunSteps(id);
      && CellAfter(cell, events) == Some(id)
      && HeldDuring(cell, events, id, InvokeRunJob)
      && Count(events, InvokeRunJob) == 1 && Count(events, CallHandler) == 0
  {
    assert TestRunSteps(id) == [SetJobId(Some(id))] + [InvokeRunJob] + [];
    Dispatch(cell, id, [InvokeRunJob], [], InvokeRunJob);
    Dispatch(cell, id, [InvokeRunJob], [], CallHandler);
    assert [InvokeRunJob][1..] == [];
  }

  /** The bracket the endpoints evidently intend: set the cell, run the job
      to its final record, clear the cell. */
  function Bracketed(h: HandlerFn, st: State, job: JobRequest): (s: Served)
    ensures s.state == st.(currentJobId := None)
    ensures s.state.currentJobId == CellAfter(st.currentJobId, s.events)
    ensures HeldDuring(st.currentJobId, s.events, JStr(job.id), InvokeRunJob)
    ensures HeldDuring(st.currentJobId, s.events, JStr(job.id), CallHandler)
    ensures Count(s.events, InvokeRunJob) == 1 && Count(s.events, CallHandler) == 1
    ensures ResultsSent(s.events) == [] && StreamSent(s.events) == []
    ensures s.reply == Answered(JObject(Job.FinalRecord(h(JobDict(job)))))
  {
    BracketStepsFacts(st.currentJobId, JStr(job.id));
    Served(st.(currentJobId := None), BracketSteps(JStr(job.id)), Answered(JObject(Job.FinalRecord(h(JobDict(job))))))
  }

  /** The intended steps: set the cell, call run_job and run the handler to
      the end, clear the cell. */
  function BracketSteps(id: Json): seq<Event> {
    [SetJobId(Some(id)), InvokeRunJob, CallHandler, SetJobId(None)]
  }

  /** In the intended steps run_job and the handler each happen once while
      the cell holds the id, the cell ends None, and nothing is sent. */
  lemma BracketStepsFacts(cell: Option<Json>, id: Json)
    ensures var events := BracketSteps(id);
      && CellAfter(cell, events) == None
      && HeldDuring(cell, events, id, InvokeRunJob)
      && HeldDuring(cell, events, id, CallHandler)
      && Count(events, InvokeRunJob) == 1 && Count(events, CallHandler) == 1
      && ResultsSent(events) == [] && StreamSent(events) == []
  {
    var body := [InvokeRunJob, CallHandler];
    assert BracketSteps(id) == [SetJobId(Some(id))] + body + [SetJobId(None)];
    Dispatch(cell, id, body, [SetJobId(None)], InvokeRunJob);
    Dispatch(cell, id, body, [SetJobId(None)], CallHandler);
    assert body[1..] == [CallHandler] && body[1..][1..] == [];
    QuietSteps(BracketSteps(id));
  }

  /** `run` as evidently intended: the handler runs while the cell holds the
      job id, and the reply is run_job's final record. */
  function RunIntended(api: WorkerApi, st: State, job: JobRequest): (s: Served)
    ensures api.handler.None? ==> s == NoHandlerResponse(st)
    ensures api.handler.Some? ==>
      var o := api.handler.value(JobDict(job));
      && HeldDuring(st.currentJobId, s.events, JStr(job.id), CallHandler)
      && Count(s.events, CallHandler) == 1
      && CellAfter(st.currentJobId, s.events) == None
      && s.state == st.(currentJobId := None)
      && s.reply.Answered? && s.reply.body.JObject?
      && OutputXorError(s.reply.body.fields)
      && (o.Returned? ==> s.reply.body.fields == map["output" := o.value])
    ensures s.state.jobList == st.jobList
  {
    if api.handler.None? then NoHandlerResponse(st)
    else Bracketed(api.handler.value, st, job)
  }

  /** `test_run` as evidently intended: as `RunIntended`, and the reply is
      stamped with the job's id, replacing any id the record carried; nothing
      else in it changes. Without a handler nothing is stamped. */
  function TestRunIntended(api: WorkerApi, st: State, job: JobRequest): (s: Served)
    ensures api.handler.None? ==> s == NoHandlerResponse(st)
    ensures api.handler.None? ==> "id" !in s.reply.body.fields
    ensures api.handler.Some? ==>
      var result := Job.FinalRecord(api.handler.value(JobDict(job)));
      && HeldDuring(st.currentJobId, s.events, JStr(job.id), CallHandler)
      && Count(s.events, CallHandler) == 1
      && CellAfter(st.currentJobId, s.events) == None
      && s.state == st.(currentJobId := None)
      && s.reply.Answered? && s.reply.body.JObject?
      && s.reply.body.fields.Keys == result.Keys + {"id"}
      && s.reply.body.fields["id"] == JStr(job.id)
      && s.reply.body.fields - {"id"} == result - {"id"}
    ensures s.state.jobList == st.jobList
  {
    if api.handler.None? then NoHandlerResponse(st)
    else
      var served := Bracketed(api.handler.value, st, job);
      var record := Job.FinalRecord(api.handler.value(JobDict(job)));
      served.(reply := Answered(JObject(record["id" := JStr(job.id)])))
  }

  /** The intended reply does not depend on the cell's value before the
      request: the same test job sent twice gets the same reply both times. */
  lemma TestRunRepeatable(api: WorkerApi, st: State, job: JobRequest)
    ensures TestRunIntended(api, TestRunIntended(api, st, job).state, job).reply == TestRunIntended(api, st, job).reply
    ensures TestRunIntended(api, TestRunIntended(api, st, job).state, job).state == TestRunIntended(api, st, job).state
  {
  }

  /** As written, a test request without an id never gets `test_job` back:
      the request fails and the cell keeps `test_job`. As intended, it is
      answered under `test_job` and the cell is cleared. */
  lemma DefaultIdIsStamped(api: WorkerApi, st: State, input: Json)
    requires api.handler.Some?
    ensures TestRun(api, st, TestJob(None, input)).reply == Failed
    ensures TestRun(api, st, TestJob(None, input)).state.currentJobId == Some(JStr("test_job"))
    ensures TestRunIntended(api, st, TestJob(None, input)).reply.body.fields["id"] == JStr("test_job")
    ensures TestRunIntended(api, st, TestJob(None, input)).state.currentJobId == None
  {
  }

  /** The counterexample for `run`: a handler returning `{"x": 1}`. As
      written the reply is the empty list and the handler runs after the cell
      was cleared; as intended the reply is `{"output": {"x": 1}}` and the
      handler runs while the cell holds the id. */
  lemma RunAnswersEmptyList(api: WorkerApi, st: State, job: JobRequest)
    requires api.handler.Some? && api.handler.value(JobDict(job)) == Returned(JObject(map["x" := JInt(1)]))
    ensures Run(api, st, job).reply == Answered(JList([]))
    ensures var s := Run(api, st, job);
      exists i :: 0 <= i < |s.events| && s.events[i] == CallHandler && CellAfter(st.currentJobId, s.events[..i]) == None
    ensures RunIntended(api, st, job).reply == Answered(JObject(map["output" := JObject(map["x" := JInt(1)])]))
    ensures HeldDuring(st.currentJobId, RunIntended(api, st, job).events, JStr(job.id), CallHandler)
  {
    var s := Run(api, st, job);
    assert s.events[3] == CallHandler && CellAfter(st.currentJobId, s.events[..3]) == None;
  }
}

=== FILE: rp_job.dfy ===
/** The queue-facing job helpers of rp_job.py: the get-job URL, admission of
    a fetched job, result shaping of `run_job` and partial wrapping of
    `run_job_generator`. HTTP is replaced by the replies it produced. */
module RpJob {
  import opened JsonValue
  import opened HandlerOutcome
  import opened Environment
  import opened WorkerState

  // ---------------------------------------------------------------- get-job URL

  const IdPlaceholder := "$ID"
  const InProgressParam := "&job_in_progress="

  /** `str(os.environ.get(name))`: an unset variable reads as "None". */
  function EnvStr(env: Env, name: string): (s: string)
    ensures name in env ==> s == env[name]
    ensures name !in env ==> s == "None"
  {
    if name in env then env[name] else "None"
  }

  /** `pat` occurs in `s` starting at index `k`. */
  predicate OccursAt(pat: string, s: string, k: int) {
    0 <= k && k + |pat| <= |s| && s[k..k + |pat|] == pat
  }

  /** `pat` occurs somewhere in `s`. */
  predicate Occurs(pat: string, s: string) {
    exists k :: 0 <= k <= |s| - |pat| && OccursAt(pat, s, k)
  }

  /** `s.replace("$ID", workerId)`: every non-overlapping occurrence, scanned
      left to right, replaced by the worker id. */
  function ReplaceId(s: string, workerId: string): string
    decreases |s|
  {
    if |s| < |IdPlaceholder| then s
    else if s[..|IdPlaceholder|] == IdPlaceholder then workerId + ReplaceId(s[|IdPlaceholder|..], workerId)
    else [s[0]] + ReplaceId(s[1..], workerId)
  }

  /** A template without the placeholder is left as it is. */
  lemma {:induction false} ReplaceIdWithoutPlaceholder(s: string, workerId: string)
    requires !Occurs(IdPlaceholder, s)
    ensures ReplaceId(s, workerId) == s
    decreases |s|
  {
    if |s| >= |IdPlaceholder| {
      assert s[0..|IdPlaceholder|] == s[..|IdPlaceholder|];
      assert !OccursAt(IdPlaceholder, s, 0);
      PlaceholderFreeTail(s);
      ReplaceIdWithoutPlaceholder(s[1..], workerId);
    }
  }

  /** Each placeholder occurrence at the front is replaced by the worker id. */
  lemma ReplaceIdAtFront(rest: string, workerId: string)
    ensures ReplaceId(IdPlaceholder + rest, workerId) == workerId + ReplaceId(rest, workerId)
  {
    assert (IdPlaceholder + rest)[..|IdPlaceholder|] == IdPlaceholder;
    assert (IdPlaceholder + rest)[|IdPlaceholder|..] == rest;
  }

  /** A stretch without the placeholder has none after its first character either. */
  lemma PlaceholderFreeTail(a: string)
    requires |a| > 0 && !Occurs(IdPlaceholder, a)
    ensures !Occurs(IdPlaceholder, a[1..])
  {
    forall k | OccursAt(IdPlaceholder, a[1..], k)
      ensures OccursAt(IdPlaceholder, a, k + 1)
    {
      assert a[k + 1..k + 1 + |IdPlaceholder|] == a[1..][k..k + |IdPlaceholder|];
    }
  }

  /** A non-empty stretch without the placeholder, followed by one, does not
      start with one: `$ID` cannot overlap itself. */
  lemma NoPlaceholderAtFront(a: string, b: string)
    requires |a| > 0 && !Occurs(IdPlaceholder, a)
    ensures (a + IdPlaceholder + b)[..|IdPlaceholder|] != IdPlaceholder
  {
    var s := a + IdPlaceholder + b;
    if |a| >= |IdPlaceholder| {
      assert s[..|IdPlaceholder|] == a[0..|IdPlaceholder|];
      assert !OccursAt(IdPlaceholder, a, 0);
    } else if |a| == 1 {
      assert s[1] == '$';
    } else {
      assert s[2] == '$';
    }
  }

  /** A placeholder after a stretch without one is the first one replaced:
      the stretch is kept, the placeholder becomes the worker id, and the
      rest is filled in the same way. */
  lemma {:induction false} ReplaceIdSplit(a: string, b: string, workerId: string)
    requires !Occurs(IdPlaceholder, a)
    ensures ReplaceId(a + IdPlaceholder + b, workerId) == a + workerId + ReplaceId(b, workerId)
    decreases |a|
  {
    var s := a + IdPlaceholder + b;
    if |a| == 0 {
      assert s == IdPlaceholder + b;
      ReplaceIdAtFront(b, workerId);
    } else {
      NoPlaceholderAtFront(a, b);
      PlaceholderFreeTail(a);
      assert s[1..] == a[1..] + IdPlaceholder + b;
      ReplaceIdSplit(a[1..], b, workerId);
      assert ReplaceId(s, workerId) == [a[0]] + ReplaceId(s[1..], workerId);
      assert [a[0]] + a[1..] == a;
    }
  }

  /** `JOB_GET_URL`: the environment's get-job URL with the worker id filled in. */
  function JobGetUrlBase(env: Env, workerId: string): string {
    ReplaceId(EnvStr(env, GetJobEnvVar), workerId)
  }

  /** The get-job URL is the text `None` when the variable is unset, the
      variable itself when it has no placeholder, and otherwise the variable
      with its first placeholder replaced by the worker id and the rest
      filled in the same way. */
  lemma JobGetUrlBaseFillsId(env: Env, workerId: string)
    ensures GetJobEnvVar !in env ==> JobGetUrlBase(env, workerId) == "None"
    ensures GetJobEnvVar in env && !Occurs(IdPlaceholder, env[GetJobEnvVar]) ==>
      JobGetUrlBase(env, workerId) == env[GetJobEnvVar]
    ensures forall a, b :: GetJobEnvVar in env && env[GetJobEnvVar] == a + IdPlaceholder + b && !Occurs(IdPlaceholder, a) ==>
      JobGetUrlBase(env, workerId) == a + workerId + ReplaceId(b, workerId)
  {
    var template := EnvStr(env, GetJobEnvVar);
    if !Occurs(IdPlaceholder, template) {
      ReplaceIdWithoutPlaceholder(template, workerId);
    }
    forall a, b | GetJobEnvVar in env && env[GetJobEnvVar] == a + IdPlaceholder + b && !Occurs(IdPlaceholder, a)
      ensures JobGetUrlBase(env, workerId) == a + workerId + ReplaceId(b, workerId)
    {
      ReplaceIdSplit(a, b, workerId);
    }
  }

  /** `_job_get_url()`: the base URL with the job-in-progress flag, which is
      `1` exactly when the job list is non-empty. */
  function JobGetUrl(base: string, jobList: set<Json>): (url: string)
    ensures |url| == |base| + |InProgressParam| + 1
    ensures url[..|base|] == base
    ensures url[|base|..] == InProgressParam + "1" <==> jobList != {}
    ensures url[|base|..] == InProgressParam + "0" <==> jobList == {}
  {
    var flag := if jobList != {} then "1" else "0";
    var url := base + InProgressParam + flag;
    assert url[|base|..] == InProgressParam + flag;
    assert (InProgressParam + "1")[|InProgressParam|] != (InProgressParam + "0")[|InProgressParam|];
    url
  }

  /** What the queue reads from a get-job URL: whether a job is in progress. */
  predicate ReportsJobInProgress(url: string) {
    |url| > 0 && url[|url| - 1] == '1'
  }

  /** The queue learns exactly whether this worker holds jobs. */
  lemma JobGetUrlReportsJobList(base: string, jobList: set<Json>)
    ensures ReportsJobInProgress(JobGetUrl(base, jobList)) <==> jobList != {}
  {
    var url := JobGetUrl(base, jobList);
    assert url[|url| - 1] == url[|base|..][|InProgressParam|];
  }

  // ---------------------------------------------------------------- admission

  /** The missing-field list logged for a fetched job: `"id"` and then
      `"input"`, each when it is absent or None. */
  function MissingFields(job: Obj): (missing: seq<string>)
    ensures missing in {[], ["id"], ["input"], ["id", "input"]}
    ensures "id" in missing <==> Absent(job, "id")
    ensures "input" in missing <==> Absent(job, "input")
  {
    var missing := (if Absent(job, "id") then ["id"] else []) + (if Absent(job, "input") then ["input"] else []);
    assert missing == [] || missing == ["id"] || missing == ["input"] || missing == ["id", "input"];
    missing
  }

  /** One GET to the queue: a reply with its status and its body when the
      body decodes to a dict (`None` when `response.json()` raises), or a
      request that raised before any reply. */
  datatype Attempt = Reply(status: int, body: Option<Obj>) | RequestFailed

  /** The job one attempt yields: a 200 or 400 reply whose body carries both
      an id and an input. */
  function Accept(a: Attempt): (job: Option<Obj>)
    ensures job.Some? <==>
      a.Reply? && (a.status == 200 || a.status == 400) && a.body.Some? && MissingFields(a.body.value) == []
    ensures job.Some? ==> job == a.body && "id" in job.value && "input" in job.value
  {
    match a
    case RequestFailed => None
    case Reply(status, body) =>
      if status == 204 then None
      else if status != 200 && status != 400 then None
      else if body.None? then None
      else if |MissingFields(body.value)| > 0 then None
      else body
  }

  /** What `get_job` hands back: the job (or None), the job list after it,
      and the number of GET requests it made. */
  datatype Fetched = Fetched(job: Option<Obj>, jobList: set<Json>, requests: nat)

  /** The job list after a job is accepted: its id is recorded. */
  function Admit(job: Obj, jobList: set<Json>): (after: set<Json>)
    requires "id" in job
    ensures after == jobList + {job["id"]}
  {
    jobList + {job["id"]}
  }

  /** `get_job(session, retry=False)`: one request; a 204, a status other
      than 200 and 400, an undecodable body or a missing field gives None. */
  function GetJobOnce(a: Attempt, jobList: set<Json>): (r: Fetched)
    ensures r.requests == 1
    ensures a.Reply? && a.status == 204 ==> r.job.None?
    ensures a.Reply? && a.status != 200 && a.status != 400 ==> r.job.None?
    ensures a.RequestFailed? ==> r.job.None?
    ensures r.job.Some? <==> a.Reply? && a.body.Some? && (a.status == 200 || a.status == 400) && MissingFields(a.body.value) == []
    ensures r.job.Some? ==> r.job == a.body && "id" in r.job.value && r.jobList == jobList + {r.job.value["id"]}
    ensures r.job.None? ==> r.jobList == jobList
  {
    match Accept(a)
    case None => Fetched(None, jobList, 1)
    case Some(job) => Fetched(Some(job), Admit(job, jobList), 1)
  }

  /** `get_job(session, retry=True)` over the replies the queue gives: it
      keeps asking until one attempt yields a job. `None` means the replies
      ran out with the worker still waiting. */
  function GetJobRetrying(attempts: seq<Attempt>, jobList: set<Json>): (r: Fetched)
    ensures r.requests <= |attempts|
    ensures r.job.None? ==>
      && r.requests == |attempts|
      && r.jobList == jobList
      && forall i :: 0 <= i < |attempts| ==> Accept(attempts[i]).None?
    ensures r.job.Some? ==>
      && 0 < r.requests
      && r.job == Accept(attempts[r.requests - 1])
      && (forall i :: 0 <= i < r.requests - 1 ==> Accept(attempts[i]).None?)
      && "id" in r.job.value
      && r.jobList == jobList + {r.job.value["id"]}
    decreases |attempts|
  {
    if |attempts| == 0 then Fetched(None, jobList, 0)
    else match Accept(attempts[0])
      case Some(job) => Fetched(Some(job), Admit(job, jobList), 1)
      case None =>
        var later := GetJobRetrying(attempts[1..], jobList);
        Fetched(later.job, later.jobList, later.requests + 1)
  }

  /** With a single reply, retrying and not retrying agree. */
  lemma RetryingOnOneAttempt(a: Attempt, jobList: set<Json>)
    ensures GetJobRetrying([a], jobList) == GetJobOnce(a, jobList)
  {
  }

  // ---------------------------------------------------------------- error report

  /** Printable ASCII, the only characters `json.dumps` emits by default. */
  predicate PrintableAscii(s: string) {
    forall k :: 0 <= k < |s| ==> ' ' <= s[k] <= '~'
  }

  /** A lower-case hex digit, as `format(n, "x")` writes them. */
  predicate LowerHex(c: char) {
    '0' <= c <= '9' || 'a' <= c <= 'f'
  }

  /** The lower-case hex digit for `d`. */
  function HexChar(d: nat): (c: char)
    requires d < 16
    ensures LowerHex(c) && ' ' <= c <= '~'
    ensures d < 10 <==> '0' <= c <= '9'
  {
    if d < 10 then (('0' as int) + d) as char else (('a' as int) + d - 10) as char
  }

  /** Four lower-case hex digits, as in `'\\u{0:04x}'`. */
  function Hex4(n: nat): (h: string)
    requires n < 0x10000
    ensures |h| == 4 && PrintableAscii(h)
    ensures forall i :: 0 <= i < 4 ==> LowerHex(h[i])
  {
    [HexChar(n / 16 / 16 / 16), HexChar(n / 16 / 16 % 16), HexChar(n / 16 % 16), HexChar(n % 16)]
  }

  /** How `json.dumps` (with `ensure_ascii`) writes one character of a string:
      a short escape, the character itself, one `\\u` escape for the basic
      plane, or a surrogate pair of them beyond it. */
  function EscapeChar(c: char): (e: string)
    ensures |e| > 0 && PrintableAscii(e)
    ensures ' ' <= c <= '~' && c != '"' && c != '\\' <==> e == [c]
  {
    var cp := c as int;
    if c == '"' then "\\\""
    else if c == '\\' then "\\\\"
    else if c == '\n' then "\\n"
    else if c == '\r' then "\\r"
    else if c == '\t' then "\\t"
    else if cp == 0x08 then "\\b"
    else if cp == 0x0C then "\\f"
    else if ' ' <= c <= '~' then [c]
    else if cp < 0x10000 then "\\u" + Hex4(cp)
    else
      var n := cp - 0x10000;
      "\\u" + Hex4(0xD800 + n / 0x400) + "\\u" + Hex4(0xDC00 + n % 0x400)
  }

  /** The body of a JSON string literal for `s`. */
  function JsonEscape(s: string): (e: string)
    ensures |e| >= |s|
    ensures PrintableAscii(e)
    decreases |s|
  {
    if |s| == 0 then "" else EscapeChar(s[0]) + JsonEscape(s[1..])
  }

  /** `json.dumps(s)` for a string `s`. */
  function JsonString(s: string): (q: string)
    ensures |q| >= 2 && q[0] == '"' && q[|q| - 1] == '"'
    ensures PrintableAscii(q)
  {
    "\"" + JsonEscape(s) + "\""
  }

  // ---------------------------------------------------------------- reading the report back

  /** The value of a hex digit, either case. */
  function HexDigit(c: char): Option<nat> {
    if '0' <= c <= '9' then Some(c as int - '0' as int)
    else if 'a' <= c <= 'f' then Some(c as int - 'a' as int + 10)
    else if 'A' <= c <= 'F' then Some(c as int - 'A' as int + 10)
    else None
  }

  /** The value of four hex digits. */
  function HexValue(h: string): (v: Option<nat>)
    requires |h| == 4
    ensures v.Some? ==> v.value < 0x10000
  {
    match (HexDigit(h[0]), HexDigit(h[1]), HexDigit(h[2]), HexDigit(h[3]))
    case (Some(a), Some(b), Some(c), Some(d)) =>
      if a < 16 && b < 16 && c < 16 && d < 16 then Some(0x1000 * a + 0x100 * b + 0x10 * c + d) else None
    case _ => None
  }

  /** `c` in front of a decoded rest, or nothing when the rest did not decode. */
  function Prepend(c: char, rest: Option<string>): Option<string> {
    if rest.None? then None else Some([c] + rest.value)
  }

  /** The character a short escape `\\x` stands for. */
  function ShortEscape(x: char): Option<char> {
    if x == '"' then Some('"')
    else if x == '\\' then Some('\\')
    else if x == '/' then Some('/')
    else if x == 'n' then Some('\n')
    else if x == 'r' then Some('\r')
    else if x == 't' then Some('\t')
    else if x == 'b' then Some(0x08 as char)
    else if x == 'f' then Some(0x0C as char)
    else None
  }

  /** The code point a surrogate pair stands for. */
  function Combine(hi: nat, lo: nat): (cp: int)
    requires 0xD800 <= hi < 0xDC00 && 0xDC00 <= lo < 0xE000
    ensures 0x10000 <= cp < 0x110000
  {
    0x10000 + (hi - 0xD800) * 0x400 + (lo - 0xDC00)
  }

  /** A JSON reader's decoding of a string literal's body: the inverse of
      `JsonEscape`, `None` for a malformed escape. */
  function JsonUnescape(e: string): Option<string>
    decreases |e|
  {
    if |e| == 0 then Some("")
    else if e[0] != '\\' then Prepend(e[0], JsonUnescape(e[1..]))
    else if |e| < 2 then None
    else if e[1] != 'u' then
      match ShortEscape(e[1])
      case None => None
      case Some(c) => Prepend(c, JsonUnescape(e[2..]))
    else if |e| < 6 then None
    else match HexValue(e[2..6])
      case None => None
      case Some(v) =>
        if v < 0xD800 || 0xE000 <= v then Prepend(v as char, JsonUnescape(e[6..]))
        else if v < 0xDC00 && |e| >= 12 && e[6..8] == "\\u" && HexValue(e[8..12]).Some?
          && 0xDC00 <= HexValue(e[8..12]).value < 0xE000
        then Prepend(Combine(v, HexValue(e[8..12]).value) as char, JsonUnescape(e[12..]))
        else None
  }

  /** A hex digit reads back as the value it was written for. */
  lemma HexCharRoundTrip(d: nat)
    requires d < 16
    ensures HexDigit(HexChar(d)) == Some(d)
  {
  }

  lemma HexRoundTrip(n: nat)
    requires n < 0x10000
    ensures HexValue(Hex4(n)) == Some(n)
  {
    var q1, d := n / 16, n % 16;
    var q2, c := q1 / 16, q1 % 16;
    var a, b := q2 / 16, q2 % 16;
    HexCharRoundTrip(a);
    HexCharRoundTrip(b);
    HexCharRoundTrip(c);
    HexCharRoundTrip(d);
    assert n == 16 * q1 + d && q1 == 16 * q2 + c && q2 == 16 * a + b;
    assert n == 0x1000 * a + 0x100 * b + 0x10 * c + d;
  }

  /** A `\\u` escape of a basic-plane character reads back as that character. */
  lemma UnescapeBasic(c: char, rest: string)
    requires c as int < 0x10000
    ensures JsonUnescape("\\u" + Hex4(c as int) + rest) == Prepend(c, JsonUnescape(rest))
  {
    var e := "\\u" + Hex4(c as int) + rest;
    assert e[2..6] == Hex4(c as int) && e[6..] == rest;
    HexRoundTrip(c as int);
  }

  /** A surrogate pair written for a character beyond the basic plane reads
      back as that character. */
  lemma UnescapeAstral(c: char, rest: string)
    requires c as int >= 0x10000
    ensures var n := c as int - 0x10000;
      JsonUnescape("\\u" + Hex4(0xD800 + n / 0x400) + "\\u" + Hex4(0xDC00 + n % 0x400) + rest)
        == Prepend(c, JsonUnescape(rest))
  {
    var n := c as int - 0x10000;
    var hi := 0xD800 + n / 0x400;
    var lo := 0xDC00 + n % 0x400;
    var e := "\\u" + Hex4(hi) + "\\u" + Hex4(lo) + rest;
    assert e[2..6] == Hex4(hi) && e[6..8] == "\\u" && e[8..12] == Hex4(lo) && e[12..] == rest;
    HexRoundTrip(hi);
    HexRoundTrip(lo);
    assert Combine(hi, lo) == c as int;
  }

  /** Each escaped character reads back as itself, whatever follows it. */
  lemma UnescapeChar(c: char, rest: string)
    ensures JsonUnescape(EscapeChar(c) + rest) == Prepend(c, JsonUnescape(rest))
  {
    var cp := c as int;
    var e := EscapeChar(c) + rest;
    if c == '"' || c == '\\' || c == '\n' || c == '\r' || c == '\t' || cp == 0x08 || cp == 0x0C {
      assert e[2..] == rest;
    } else if ' ' <= c <= '~' {
      assert e[1..] == rest;
    } else if cp < 0x10000 {
      UnescapeBasic(c, rest);
    } else {
      UnescapeAstral(c, rest);
    }
  }

  /** Reading an escaped string back gives the string: the escaping loses
      nothing. */
  lemma {:induction false} JsonEscapeRoundTrip(s: string)
    ensures JsonUnescape(JsonEscape(s)) == Some(s)
    decreases |s|
  {
    if |s| > 0 {
      UnescapeChar(s[0], JsonEscape(s[1..]));
      JsonEscapeRoundTrip(s[1..]);
      assert [s[0]] + s[1..] == s;
    }
  }

  /** A dumped string reads back, between its quotes, as the string. */
  lemma JsonStringRoundTrip(s: string)
    ensures var q := JsonString(s); JsonUnescape(q[1..|q| - 1]) == Some(s)
  {
    var q := JsonString(s);
    assert q[1..|q| - 1] == JsonEscape(s);
    JsonEscapeRoundTrip(s);
  }

  /** Text `json.dumps` can emit with an indent: printable ASCII and the
      line breaks of the layout. */
  predicate DumpedText(s: string) {
    forall k :: 0 <= k < |s| ==> s[k] == '\n' || ' ' <= s[k] <= '~'
  }

  /** Dumped text joined to dumped text is dumped text. */
  lemma DumpedConcat(a: string, b: string)
    requires DumpedText(a) && DumpedText(b)
    ensures DumpedText(a + b)
  {
    forall k | 0 <= k < |a + b| ensures (a + b)[k] == '\n' || ' ' <= (a + b)[k] <= '~' {
      if k >= |a| {
        assert (a + b)[k] == b[k - |a|];
      }
    }
  }

  /** A stretch of `s` is the same stretch of `p + s`, moved by `|p|`. */
  lemma OccursAfter(pat: string, p: string, s: string, k: int)
    requires OccursAt(pat, s, k)
    ensures OccursAt(pat, p + s, |p| + k)
  {
    assert (p + s)[|p| + k..|p| + k + |pat|] == s[k..k + |pat|];
  }

  /** A stretch of `s` is the same stretch of `s + q`. */
  lemma OccursBefore(pat: string, s: string, q: string, k: int)
    requires OccursAt(pat, s, k)
    ensures OccursAt(pat, s + q, k)
  {
    assert (s + q)[k..k + |pat|] == s[k..k + |pat|];
  }

  /** The keys of the exception report. */
  datatype ReportKey = ErrorType | ErrorMessage | ErrorTraceback | HostName | PodId

  /** A report key as `json.dumps` writes it, quotes included: its letters
      and underscores need no escaping. */
  function KeyText(key: ReportKey): (text: string)
    ensures PrintableAscii(text) && |text| > 2 && text[0] == '"' && text[|text| - 1] == '"'
  {
    match key
    case ErrorType => "\"error_type\""
    case ErrorMessage => "\"error_message\""
    case ErrorTraceback => "\"error_traceback\""
    case HostName => "\"host_name\""
    case PodId => "\"pod_id\""
  }

  /** One `"key": value` member of the report. */
  function Member(key: ReportKey, value: string): (m: string)
    ensures DumpedText(m)
  {
    KeyText(key) + ": " + JsonString(value)
  }

  /** The member for a pod variable, `os.environ.get(name, "unknown")`. */
  function EnvMember(key: ReportKey, env: Env, name: string): (m: string)
    ensures DumpedText(m)
  {
    Member(key, EnvGet(env, name, "unknown"))
  }

  /** The members of a dict as `json.dumps` lays them out with indent 4:
      each on its own line, four spaces in, separated by commas. */
  function IndentedMembers(ms: seq<string>): string
    decreases |ms|
  {
    if |ms| == 0 then ""
    else if |ms| == 1 then "    " + ms[0]
    else "    " + ms[0] + ",\n" + IndentedMembers(ms[1..])
  }

  /** Laying out dumped members gives dumped text. */
  lemma {:induction false} IndentedMembersDumped(ms: seq<string>)
    requires forall i :: 0 <= i < |ms| ==> DumpedText(ms[i])
    ensures DumpedText(IndentedMembers(ms))
    decreases |ms|
  {
    if |ms| > 0 {
      DumpedConcat("    ", ms[0]);
      if |ms| > 1 {
        IndentedMembersDumped(ms[1..]);
        DumpedConcat("    " + ms[0], ",\n");
        DumpedConcat("    " + ms[0] + ",\n", IndentedMembers(ms[1..]));
      }
    }
  }

  /** The first member of the laid-out dict starts four spaces in. */
  lemma FirstMemberAt(ms: seq<string>)
    requires |ms| > 0
    ensures OccursAt(ms[0], IndentedMembers(ms), 4)
  {
    var rest := if |ms| == 1 then "" else ",\n" + IndentedMembers(ms[1..]);
    assert IndentedMembers(ms) == ("    " + ms[0]) + rest;
    assert OccursAt(ms[0], ms[0], 0);
    OccursAfter(ms[0], "    ", ms[0], 0);
    OccursBefore(ms[0], "    " + ms[0], rest, 4);
  }

  /** Every member appears in the laid-out dict. */
  lemma {:induction false} IndentedMembersHas(ms: seq<string>, i: nat)
    requires i < |ms|
    ensures Occurs(ms[i], IndentedMembers(ms))
    decreases |ms|
  {
    if i == 0 {
      FirstMemberAt(ms);
    } else {
      IndentedMembersHas(ms[1..], i - 1);
      var rest := IndentedMembers(ms[1..]);
      var k :| 0 <= k <= |rest| - |ms[i]| && OccursAt(ms[i], rest, k);
      var head := "    " + ms[0] + ",\n";
      OccursAfter(ms[i], head, rest, k);
      assert head + rest == IndentedMembers(ms);
    }
  }

  /** `json.dumps(d, indent=4)` for a dict of strings whose members are `ms`:
      braces on their own lines around the members, each member in it. */
  function IndentedObject(ms: seq<string>): (text: string)
    ensures |text| >= 4 && text[..2] == "{\n" && text[|text| - 2..] == "\n}"
    ensures (forall i :: 0 <= i < |ms| ==> DumpedText(ms[i])) ==> DumpedText(text)
    ensures forall i :: 0 <= i < |ms| ==> Occurs(ms[i], text)
  {
    BracedMembers(ms);
    "{\n" + IndentedMembers(ms) + "\n}"
  }

  /** The braces keep the laid-out members' text and every member in it. */
  lemma BracedMembers(ms: seq<string>)
    ensures var text := "{\n" + IndentedMembers(ms) + "\n}";
      && ((forall i :: 0 <= i < |ms| ==> DumpedText(ms[i])) ==> DumpedText(text))
      && (forall i :: 0 <= i < |ms| ==> Occurs(ms[i], text))
  {
    if forall i :: 0 <= i < |ms| ==> DumpedText(ms[i]) {
      IndentedMembersDumped(ms);
      DumpedConcat("{\n", IndentedMembers(ms));
      DumpedConcat("{\n" + IndentedMembers(ms), "\n}");
    }
    forall i | 0 <= i < |ms| ensures Occurs(ms[i], "{\n" + IndentedMembers(ms) + "\n}") {
      BracedMember(ms, i);
    }
  }

  /** One member of the laid-out dict is still in it once braced. */
  lemma BracedMember(ms: seq<string>, i: nat)
    requires i < |ms|
    ensures Occurs(ms[i], "{\n" + IndentedMembers(ms) + "\n}")
  {
    var body := IndentedMembers(ms);
    IndentedMembersHas(ms, i);
    var k :| 0 <= k <= |body| - |ms[i]| && OccursAt(ms[i], body, k);
    OccursAfter(ms[i], "{\n", body, k);
    OccursBefore(ms[i], "{\n" + body, "\n}", 2 + k);
  }

  /** Five dumped members make a list of dumped members. */
  lemma AllDumped(a: string, b: string, c: string, d: string, e: string)
    requires DumpedText(a) && DumpedText(b) && DumpedText(c) && DumpedText(d) && DumpedText(e)
    ensures var ms := [a, b, c, d, e];
      && ms[0] == a && ms[1] == b && ms[2] == c && ms[3] == d && ms[4] == e
      && forall i :: 0 <= i < 5 ==> DumpedText(ms[i])
  {
  }

  /** The report `run_job` stores under `"error"` for a raising handler:
      `json.dumps` with indent 4 of the exception's class, message and
      traceback and of the pod's host name and id, each "unknown" when unset.
      Each value appears as its own dumped string, which reads back exactly
      (`JsonStringRoundTrip`). */
  function ErrorContent(f: Failure, env: Env): (report: string)
    ensures DumpedText(report)
    ensures |report| >= 4 && report[..2] == "{\n" && report[|report| - 2..] == "\n}"
    ensures Occurs(Member(ErrorType, "<class '" + f.className + "'>"), report)
    ensures Occurs(Member(ErrorMessage, f.message), report)
    ensures Occurs(Member(ErrorTraceback, f.traceback), report)
    ensures Occurs(EnvMember(HostName, env, "RUNPOD_POD_HOSTNAME"), report)
    ensures Occurs(EnvMember(PodId, env, "RUNPOD_POD_ID"), report)
  {
    var kind := Member(ErrorType, "<class '" + f.className + "'>");
    var message := Member(ErrorMessage, f.message);
    var traceback := Member(ErrorTraceback, f.traceback);
    var host := EnvMember(HostName, env, "RUNPOD_POD_HOSTNAME");
    var pod := EnvMember(PodId, env, "RUNPOD_POD_ID");
    AllDumped(kind, message, traceback, host, pod);
    IndentedObject([kind, message, traceback, host, pod])
  }

  /** The report keeps the exception's message and traceback whole: each
      stands in it as a dumped string that a JSON reader reads back exactly. */
  lemma ErrorReportKeepsText(f: Failure, env: Env)
    ensures var q := JsonString(f.message);
      Occurs(KeyText(ErrorMessage) + ": " + q, ErrorContent(f, env)) && JsonUnescape(q[1..|q| - 1]) == Some(f.message)
    ensures var q := JsonString(f.traceback);
      Occurs(KeyText(ErrorTraceback) + ": " + q, ErrorContent(f, env)) && JsonUnescape(q[1..|q| - 1]) == Some(f.traceback)
  {
    JsonStringRoundTrip(f.message);
    JsonStringRoundTrip(f.traceback);
  }

  // ---------------------------------------------------------------- run_job

  /** The record `run_job` gives a worker that must stop after this job. */
  function StopPodRecord(output: Obj): Obj {
    map["stopPod" := JBool(true), "output" := JObject(output)]
  }

  /** `run_job(handler, job)`: the handler's outcome shaped into a result.
      The result starts as `{"output": o}`; a dict output with a truthy
      `error` replaces it by `{"error": str(error)}`, and then a truthy
      `refresh_worker` replaces that by `{"stopPod": True, "output": o}`
      with the flag popped from `o`. An exception becomes an error report.
      A handler that returns a generator is outside this runner's domain. */
  function RunJob(o: Outcome, env: Env): (r: Obj)
    requires !o.Streamed?
    ensures OutputXorError(r)
    ensures o.Raised? ==> r.Keys == {"error"} && r["error"] == JStr(ErrorContent(o.failure, env))
    ensures o.Returned? && !o.value.JObject? ==> r == Wrap(o.value)
    ensures o.Returned? && o.value.JObject? && FlagSet(o.value.fields, "refresh_worker") ==>
      r == StopPodRecord(o.value.fields - {"refresh_worker"})
    ensures o.Returned? && o.value.JObject? && !FlagSet(o.value.fields, "refresh_worker") && FlagSet(o.value.fields, "error") ==>
      r == ErrorRecord(PyStr(o.value.fields["error"]))
    ensures o.Returned? && o.value.JObject? && !FlagSet(o.value.fields, "refresh_worker") && !FlagSet(o.value.fields, "error") ==>
      r == Wrap(o.value)
    ensures "stopPod" in r <==> o.Returned? && o.value.JObject? && FlagSet(o.value.fields, "refresh_worker")
  {
    if o.Raised? then ErrorRecord(ErrorContent(o.failure, env))
    else ShapeOutput(o.value)
  }

  /** The `try` block of `run_job` after the handler returned `output`. */
  function ShapeOutput(output: Json): (r: Obj)
    ensures OutputXorError(r)
    ensures "stopPod" in r <==> output.JObject? && FlagSet(output.fields, "refresh_worker")
    ensures !output.JObject? ==> r == Wrap(output)
  {
    var result := Wrap(output);
    if !output.JObject? then result
    else
      var checked := if FlagSet(output.fields, "error") then ErrorRecord(PyStr(output.fields["error"])) else result;
      if FlagSet(output.fields, "refresh_worker") then StopPodRecord(output.fields - {"refresh_worker"})
      else checked
  }

  /** The refresh rule is checked after the error rule, so it wins: an output
      asking for a refresh is passed on whole, its error included, and the
      result carries no top-level error. */
  lemma RefreshOverridesError(fields: Obj, env: Env)
    requires FlagSet(fields, "error") && FlagSet(fields, "refresh_worker")
    ensures "error" !in RunJob(Returned(JObject(fields)), env)
    ensures RunJob(Returned(JObject(fields)), env)["output"].fields["error"] == fields["error"]
  {
  }

  // ---------------------------------------------------------------- run_job_generator

  /** `run_job_generator(handler, job)` over the stream the handler produced:
      its partials in order, then how it stopped. A handler that raises before
      streaming, or whose value cannot be iterated, is the stream that yields
      nothing and raises. Each partial is yielded as `{"output": p}`; a raise
      adds one final error record. */
  method RunJobGenerator(partials: seq<Json>, stopped: Option<Failure>) returns (yielded: seq<Obj>)
    ensures |yielded| == |partials| + (if stopped.Some? then 1 else 0)
    ensures forall i :: 0 <= i < |partials| ==> yielded[i] == Wrap(partials[i])
    ensures stopped.Some? ==> yielded[|partials|] == ErrorRecord(HandlerErrorText(stopped.value))
    ensures forall i :: 0 <= i < |yielded| ==> OutputXorError(yielded[i])
  {
    yielded := [];
    var i := 0;
    while i < |partials|
      invariant 0 <= i <= |partials|
      invariant |yielded| == i
      invariant forall k :: 0 <= k < i ==> yielded[k] == Wrap(partials[k])
    {
      yielded := yielded + [Wrap(partials[i])];
      i := i + 1;
    }
    if stopped.Some? {
      yielded := yielded + [ErrorRecord(HandlerErrorText(stopped.value))];
    }
  }
}

=== FILE: work_loop.dfy ===
/** One iteration of the worker loop of work_loop.py's `start_worker`: fetch a
    job, set the job-id cell, run it (or report a missing input), send the
    result, clear the cell, and in local testing stop with an exit code.

    `run_job` is a generator function, so the value it gives the loop is
    always a generator and the branch at work_loop.py:65 is always taken: the
    loop iterates it, streams every record, and then sends `job_stream`, a
    variable of `start_worker` that keeps its value from one iteration to the
    next. `Process` models that as written; `ProcessIntended` sends the
    record a consumer of `run_job` evidently should. */
module WorkLoop {
  import opened JsonValue
  import opened HandlerOutcome
  import opened Environment
  import opened WorkerState
  import Job

  /** The parts of `config` one iteration reads: the handler, the
      `refresh_worker` flag (False when the key is absent) and
      `rp_args["test_input"]` (None when absent). The `rp_debugger` flag is
      taken to be unset. */
  datatype WorkerConfig = WorkerConfig(handler: HandlerFn, refreshWorker: Json, testInput: Option<Obj>)

  /** How an iteration ends: the loop goes on, `sys.exit(code)`, or the loop
      dies at work_loop.py:68 reading `job_stream` while it is still unbound
      (an `UnboundLocalError`). */
  datatype Exit = Continue | ExitWith(code: int) | Aborted

  /** What one iteration does: the state after it, its steps, how it ends. */
  datatype Iteration = Iteration(state: State, events: seq<Event>, exit: Exit)

  /** An iteration of the loop as written, with the loop variable
      `job_stream` after it (`None` while it has never been bound). */
  datatype Turn = Turn(it: Iteration, jobStream: Option<Obj>)

  /** `_is_local_testing()`: the queue URL variable is unset. */
  function IsLocalTesting(env: Env): (local: bool)
    ensures local <==> GetJobEnvVar !in env
    ensures local == Job.IsLocalTest(env)
  {
    GetJobEnvVar !in env
  }

  /** The error for a job without input. */
  function NoInputError(id: Json): string {
    "Job " + PyStr(id) + " has no input parameter. Unable to run."
  }

  /** The result as sent: stamped `stopPod = True` when `refresh_worker` is truthy. */
  function WithRefresh(cfg: WorkerConfig, result: Obj): (sent: Obj)
    ensures Truthy(cfg.refreshWorker) ==> sent.Keys == result.Keys + {"stopPod"} && sent["stopPod"] == JBool(true)
    ensures sent - {"stopPod"} == result - {"stopPod"}
    ensures !Truthy(cfg.refreshWorker) ==> sent == result
  {
    if Truthy(cfg.refreshWorker) then result["stopPod" := JBool(true)] else result
  }

  /** The exit code in local testing: 1 when the sent result has an `error`
      key, whatever its value, else 0. */
  function ExitFor(env: Env, sent: Obj): (exit: Exit)
    ensures !IsLocalTesting(env) <==> exit == Continue
    ensures IsLocalTesting(env) ==> (exit == ExitWith(1) <==> "error" in sent)
    ensures IsLocalTesting(env) ==> (exit == ExitWith(0) <==> "error" !in sent)
  {
    if IsLocalTesting(env) then (if "error" in sent then ExitWith(1) else ExitWith(0)) else Continue
  }

  /** The last record a stream yielded. */
  function Last(records: seq<Obj>): Obj
    requires |records| > 0
  {
    records[|records| - 1]
  }

  /** The steps of a job whose input is present, up to the end of the `for`
      loop: `set_job_id(id)`, the run_job call, the handler running as the
      generator is first advanced, and one stream send per record. */
  function Opening(id: Json, records: seq<Obj>): seq<Event> {
    [SetJobId(Some(id))] + ([InvokeRunJob, CallHandler] + StreamEvents(records))
  }

  /** The opening calls run_job and the handler once each, with the cell
      holding the id, and sends exactly the records to the stream endpoint;
      steps after it without another call keep those facts. */
  lemma OpeningFacts(cell: Option<Json>, id: Json, records: seq<Obj>, tail: seq<Event>)
    requires forall k :: 0 <= k < |tail| ==> !tail[k].InvokeRunJob? && !tail[k].CallHandler?
    ensures HeldDuring(cell, Opening(id, records) + tail, id, InvokeRunJob)
    ensures HeldDuring(cell, Opening(id, records) + tail, id, CallHandler)
    ensures Count(Opening(id, records) + tail, InvokeRunJob) == 1
    ensures Count(Opening(id, records) + tail, CallHandler) == 1
    ensures CellAfter(cell, Opening(id, records) + tail) == CellAfter(Some(id), tail)
    ensures StreamSent(Opening(id, records) + tail) == records + StreamSent(tail)
    ensures ResultsSent(Opening(id, records) + tail) == ResultsSent(tail)
  {
    var calls := [InvokeRunJob, CallHandler];
    var body := calls + StreamEvents(records);
    var events := [SetJobId(Some(id))] + body + tail;
    assert Opening(id, records) + tail == events;
    assert KeepsCell(body) by {
      forall k | 0 <= k < |body| ensures !body[k].SetJobId? {
        if k >= 2 {
          assert body[k] == StreamEvents(records)[k - 2];
        }
      }
    }
    Dispatch(cell, id, body, tail, InvokeRunJob);
    Dispatch(cell, id, body, tail, CallHandler);
    CountAppend(calls, StreamEvents(records), InvokeRunJob);
    CountAppend(calls, StreamEvents(records), CallHandler);
    CountAbsent(StreamEvents(records), InvokeRunJob);
    CountAbsent(StreamEvents(records), CallHandler);
    assert calls[1..] == [CallHandler] && calls[1..][1..] == [];
    OpeningSends([SetJobId(Some(id))] + calls, StreamEvents(records), tail);
    QuietSteps([SetJobId(Some(id))] + calls);
    StreamEventsSend(records);
    assert events == ([SetJobId(Some(id))] + calls) + StreamEvents(records) + tail;
  }

  /** The sends of a three-part trace are those of its parts, in order. */
  lemma OpeningSends(a: seq<Event>, b: seq<Event>, c: seq<Event>)
    ensures StreamSent(a + b + c) == StreamSent(a) + StreamSent(b) + StreamSent(c)
    ensures ResultsSent(a + b + c) == ResultsSent(a) + ResultsSent(b) + ResultsSent(c)
  {
    StreamSentAppend(a + b, c);
    StreamSentAppend(a, b);
    ResultsSentAppend(a + b, c);
    ResultsSentAppend(a, b);
  }

  /** A job whose run_job generator was consumed and whose `result` was then
      sent: the opening, the result (stamped when refreshing), the clear. */
  function Ran(cfg: WorkerConfig, env: Env, st: State, id: Json, records: seq<Obj>, result: Obj): (it: Iteration)
    ensures it.events == Opening(id, records) + [SendResult(WithRefresh(cfg, result)), SetJobId(None)]
    ensures it.state == st.(currentJobId := None)
    ensures it.state.currentJobId == CellAfter(st.currentJobId, it.events)
    ensures HeldDuring(st.currentJobId, it.events, id, InvokeRunJob)
    ensures HeldDuring(st.currentJobId, it.events, id, CallHandler)
    ensures Count(it.events, InvokeRunJob) == 1 && Count(it.events, CallHandler) == 1
    ensures StreamSent(it.events) == records
    ensures ResultsSent(it.events) == [WithRefresh(cfg, result)]
    ensures it.exit == ExitFor(env, WithRefresh(cfg, result))
  {
    var sent := WithRefresh(cfg, result);
    RanFacts(st.currentJobId, id, records, sent);
    Iteration(st.(currentJobId := None), Opening(id, records) + [SendResult(sent), SetJobId(None)], ExitFor(env, sent))
  }

  /** After the opening, sending `sent` and clearing the cell sends that one
      result and leaves the cell None. */
  lemma RanFacts(cell: Option<Json>, id: Json, records: seq<Obj>, sent: Obj)
    ensures var events := Opening(id, records) + [SendResult(sent), SetJobId(None)];
      && CellAfter(cell, events) == None
      && HeldDuring(cell, events, id, InvokeRunJob)
      && HeldDuring(cell, events, id, CallHandler)
      && Count(events, InvokeRunJob) == 1 && Count(events, CallHandler) == 1
      && StreamSent(events) == records
      && ResultsSent(events) == [sent]
  {
    var closing := [SendResult(sent), SetJobId(None)];
    OpeningFacts(cell, id, records, closing);
    ClosingSteps(sent);
    assert records + [] == records;
  }

  /** A job whose generator yielded nothing while `job_stream` was never
      bound: the loop dies at work_loop.py:68 with the cell still holding the
      id and nothing sent. */
  function Unbound(st: State, id: Json): (it: Iteration)
    ensures it.events == Opening(id, [])
    ensures it.state == st.(currentJobId := Some(id))
    ensures it.state.currentJobId == CellAfter(st.currentJobId, it.events)
    ensures HeldDuring(st.currentJobId, it.events, id, InvokeRunJob)
    ensures HeldDuring(st.currentJobId, it.events, id, CallHandler)
    ensures Count(it.events, InvokeRunJob) == 1 && Count(it.events, CallHandler) == 1
    ensures StreamSent(it.events) == [] && ResultsSent(it.events) == []
    ensures it.exit == Aborted
  {
    UnboundFacts(st.currentJobId, id);
    Iteration(st.(currentJobId := Some(id)), Opening(id, []), Aborted)
  }

  /** An opening that streams nothing and stops there calls run_job and the
      handler once with the cell holding the id, and sends nothing. */
  lemma UnboundFacts(cell: Option<Json>, id: Json)
    ensures var events := Opening(id, []);
      && CellAfter(cell, events) == Some(id)
      && HeldDuring(cell, events, id, InvokeRunJob)
      && HeldDuring(cell, events, id, CallHandler)
      && Count(events, InvokeRunJob) == 1 && Count(events, CallHandler) == 1
      && StreamSent(events) == [] && ResultsSent(events) == []
  {
    OpeningFacts(cell, id, [], []);
    assert Opening(id, []) + [] == Opening(id, []);
  }

  /** A job without input: `set_job_id(id)`, then the error is sent. */
  function Unrunnable(cfg: WorkerConfig, env: Env, st: State, id: Json): (it: Iteration)
    ensures it.events == [SetJobId(Some(id)), SendResult(WithRefresh(cfg, ErrorRecord(NoInputError(id)))), SetJobId(None)]
    ensures it.state == st.(currentJobId := None)
    ensures it.state.currentJobId == CellAfter(st.currentJobId, it.events)
    ensures Count(it.events, InvokeRunJob) == 0 && Count(it.events, CallHandler) == 0
    ensures StreamSent(it.events) == []
    ensures ResultsSent(it.events) == [WithRefresh(cfg, ErrorRecord(NoInputError(id)))]
    ensures it.exit == ExitFor(env, WithRefresh(cfg, ErrorRecord(NoInputError(id))))
  {
    var sent := WithRefresh(cfg, ErrorRecord(NoInputError(id)));
    UnrunnableFacts(st.currentJobId, id, sent);
    Iteration(st.(currentJobId := None), [SetJobId(Some(id)), SendResult(sent), SetJobId(None)], ExitFor(env, sent))
  }

  /** Setting the cell, sending `sent` and clearing it calls neither run_job
      nor the handler, sends that one result and leaves the cell None. */
  lemma UnrunnableFacts(cell: Option<Json>, id: Json, sent: Obj)
    ensures var events := [SetJobId(Some(id)), SendResult(sent), SetJobId(None)];
      && CellAfter(cell, events) == None
      && Count(events, InvokeRunJob) == 0 && Count(events, CallHandler) == 0
      && StreamSent(events) == [] && ResultsSent(events) == [sent]
  {
    var closing := [SendResult(sent), SetJobId(None)];
    assert [SetJobId(Some(id)), SendResult(sent), SetJobId(None)] == [SetJobId(Some(id))] + [] + closing;
    Dispatch(cell, id, [], closing, InvokeRunJob);
    Dispatch(cell, id, [], closing, CallHandler);
    assert closing[..1] == [SendResult(sent)] && closing[..1][..0] == [];
    assert CellAfter(Some(id), closing) == None;
    OpeningSends([SetJobId(Some(id))], [], closing);
    QuietSteps([SetJobId(Some(id))]);
    QuietSteps([]);
    ClosingSteps(sent);
  }

  /** The iteration of a job with an input, as work_loop.py:63-95 do, once
      run_job's generator has yielded `records`. After the `for` loop
      `job_stream` is the last record or, when nothing was yielded, its old
      value; that record is sent, and since the refresh stamp mutates that
      same dict, `job_stream` keeps the stamped record afterwards. */
  function Consumed(cfg: WorkerConfig, env: Env, st: State, jobStream: Option<Obj>, id: Json, records: seq<Obj>): (t: Turn)
    ensures t.it.state.jobList == st.jobList
    ensures |t.it.events| > 0 && t.it.events[0] == SetJobId(Some(id))
    ensures t.it.state.currentJobId == CellAfter(st.currentJobId, t.it.events)
    ensures HeldDuring(st.currentJobId, t.it.events, id, InvokeRunJob)
    ensures HeldDuring(st.currentJobId, t.it.events, id, CallHandler)
    ensures Count(t.it.events, InvokeRunJob) == 1 && Count(t.it.events, CallHandler) == 1
    ensures StreamSent(t.it.events) == records
    ensures t.it.exit == Aborted <==> records == [] && jobStream.None?
    ensures t.it.exit == Aborted ==>
      t.it.state.currentJobId == Some(id) && ResultsSent(t.it.events) == [] && t.jobStream.None?
    ensures t.it.exit != Aborted ==>
      var sent := WithRefresh(cfg, if |records| > 0 then records[|records| - 1] else jobStream.value);
      && t.it.state.currentJobId == None
      && ResultsSent(t.it.events) == [sent]
      && t.it.exit == ExitFor(env, sent)
      && t.jobStream == Some(sent)
  {
    var bound := if |records| > 0 then Some(Last(records)) else jobStream;
    match bound
    case None => Turn(Unbound(st, id), None)
    case Some(r) => Turn(Ran(cfg, env, st, id, records, r), Some(WithRefresh(cfg, r)))
  }

  /** Processing a fetched job as work_loop.py:55-95 do, from
      `set_job_id(job["id"])` on, given `job_stream` as earlier iterations
      left it. */
  function Process(cfg: WorkerConfig, env: Env, st: State, jobStream: Option<Obj>, job: Obj): (t: Turn)
    requires "id" in job
    ensures t.it.state.jobList == st.jobList
    ensures |t.it.events| > 0 && t.it.events[0] == SetJobId(Some(job["id"]))
    ensures t.it.state.currentJobId == CellAfter(st.currentJobId, t.it.events)
    ensures Count(t.it.events, InvokeRunJob) == Count(t.it.events, CallHandler) == if Absent(job, "input") then 0 else 1
    ensures HeldDuring(st.currentJobId, t.it.events, job["id"], InvokeRunJob)
    ensures HeldDuring(st.currentJobId, t.it.events, job["id"], CallHandler)
    ensures StreamSent(t.it.events) == if Absent(job, "input") then [] else Job.RunJob(cfg.handler(job)).yielded
    ensures t.it.exit == Aborted <==>
      !Absent(job, "input") && Job.RunJob(cfg.handler(job)).yielded == [] && jobStream.None?
    ensures t.it.exit == Aborted ==>
      t.it.state.currentJobId == Some(job["id"]) && ResultsSent(t.it.events) == [] && t.jobStream.None?
    ensures t.it.exit != Aborted ==>
      && t.it.state.currentJobId == None
      && |ResultsSent(t.it.events)| == 1
      && t.it.exit == ExitFor(env, ResultsSent(t.it.events)[0])
    ensures Absent(job, "input") ==> t.jobStream == jobStream
    ensures !Absent(job, "input") && t.it.exit != Aborted ==> t.jobStream == Some(ResultsSent(t.it.events)[0])
  {
    if Absent(job, "input") then Turn(Unrunnable(cfg, env, st, job["id"]), jobStream)
    else Consumed(cfg, env, st, jobStream, job["id"], Job.RunJob(cfg.handler(job)).yielded)
  }

  /** The iteration as evidently intended: the record sent for a job with an
      input is run_job's final record (the last one yielded, else its return
      value), so the iteration always reaches the send and the clear. */
  function ProcessIntended(cfg: WorkerConfig, env: Env, st: State, job: Obj): (it: Iteration)
    requires "id" in job
    ensures it.state == st.(currentJobId := None)
    ensures it.state.currentJobId == CellAfter(st.currentJobId, it.events)
    ensures HeldDuring(st.currentJobId, it.events, job["id"], InvokeRunJob)
    ensures HeldDuring(st.currentJobId, it.events, job["id"], CallHandler)
    ensures Count(it.events, InvokeRunJob) == Count(it.events, CallHandler) == if Absent(job, "input") then 0 else 1
    ensures StreamSent(it.events) == if Absent(job, "input") then [] else Job.RunJob(cfg.handler(job)).yielded
    ensures ResultsSent(it.events) ==
      [WithRefresh(cfg, if Absent(job, "input") then ErrorRecord(NoInputError(job["id"])) else Job.FinalRecord(cfg.handler(job)))]
    ensures it.exit == ExitFor(env, ResultsSent(it.events)[0])
    ensures it.exit != Aborted
  {
    var id := job["id"];
    if Absent(job, "input") then Unrunnable(cfg, env, st, id)
    else Ran(cfg, env, st, id, Job.RunJob(cfg.handler(job)).yielded, Job.FinalRecord(cfg.handler(job)))
  }

  /** One turn of `start_worker`'s loop as written: a job that `get_job`
      does not give leaves everything as it was and sends nothing. */
  function Iterate(cfg: WorkerConfig, env: Env, file: Job.LocalFile, remote: Job.Response, st: State, jobStream: Option<Obj>): (t: Turn)
    ensures Job.GetJob(cfg.testInput, env, file, remote).None? ==> t == Turn(Iteration(st, [], Continue), jobStream)
    ensures t.it.state.jobList == st.jobList
    ensures t.it.state.currentJobId == CellAfter(st.currentJobId, t.it.events)
    ensures Job.GetJob(cfg.testInput, env, file, remote).Some? ==>
      (t.it.exit == Aborted <==> t.it.state.currentJobId == Some(Job.GetJob(cfg.testInput, env, file, remote).value["id"]))
  {
    match Job.GetJob(cfg.testInput, env, file, remote)
    case None => Turn(Iteration(st, [], Continue), jobStream)
    case Some(job) => Process(cfg, env, st, jobStream, job)
  }

  // ---------------------------------------------------------------- properties

  /** A job without an input is answered with exactly the missing-input
      error (plus `stopPod` when refreshing), the handler is not called, and
      `job_stream` is left alone. */
  lemma NoInputIsReported(cfg: WorkerConfig, env: Env, st: State, jobStream: Option<Obj>, job: Obj)
    requires "id" in job && Absent(job, "input")
    ensures var t := Process(cfg, env, st, jobStream, job);
      && Count(t.it.events, CallHandler) == 0
      && ResultsSent(t.it.events) == [WithRefresh(cfg, map["error" := JStr(NoInputError(job["id"]))])]
      && StreamSent(t.it.events) == []
      && t.jobStream == jobStream
  {
    assert ErrorRecord(NoInputError(job["id"])) == map["error" := JStr(NoInputError(job["id"]))];
  }

  /** With a streaming handler that yields something, every partial goes to
      the stream endpoint in order, then the last one is sent as the result
      and stays in `job_stream`. */
  lemma StreamIsForwarded(cfg: WorkerConfig, env: Env, st: State, jobStream: Option<Obj>, job: Obj)
    requires "id" in job && !Absent(job, "input")
    requires cfg.handler(job).Streamed? && |cfg.handler(job).partials| > 0
    ensures var t := Process(cfg, env, st, jobStream, job);
      var ps := cfg.handler(job).partials;
      && StreamSent(t.it.events) == WrapAll(ps)
      && ResultsSent(t.it.events) == [WithRefresh(cfg, Wrap(ps[|ps| - 1]))]
      && t.it.exit != Aborted
      && t.jobStream == Some(WithRefresh(cfg, Wrap(ps[|ps| - 1])))
  {
    var records := Job.RunJob(cfg.handler(job)).yielded;
    assert Last(records) == Wrap(cfg.handler(job).partials[|records| - 1]);
  }

  /** As written, a handler that does not stream never has its result sent:
      the `for` loop sees no record, so the loop resends the record an
      earlier job left in `job_stream` or, on a worker that has streamed
      nothing yet, dies with the cell still holding the id. */
  lemma ReturnedIsNeverSent(cfg: WorkerConfig, env: Env, st: State, jobStream: Option<Obj>, job: Obj)
    requires "id" in job && !Absent(job, "input") && !cfg.handler(job).Streamed?
    ensures var t := Process(cfg, env, st, jobStream, job);
      && StreamSent(t.it.events) == []
      && ResultsSent(t.it.events) == (if jobStream.Some? then [WithRefresh(cfg, jobStream.value)] else [])
      && (t.it.exit == Aborted <==> jobStream.None?)
      && (jobStream.None? ==> t.it.state.currentJobId == Some(job["id"]))
  {
  }

  /** The counterexample: the first job of a local test, `{"id": "j",
      "input": 1}`, with a handler returning `{"x": 1}`. As written the loop
      sends nothing and dies with the cell set; as intended it sends
      `{"output": {"x": 1}}` and exits with 0. */
  lemma FirstReturnedJobAborts(cfg: WorkerConfig, st: State)
    requires cfg.handler(map["id" := JStr("j"), "input" := JInt(1)]) == Returned(JObject(map["x" := JInt(1)]))
    requires !Truthy(cfg.refreshWorker)
    ensures var job := map["id" := JStr("j"), "input" := JInt(1)];
      var t := Process(cfg, map[], st, None, job);
      && t.it.exit == Aborted
      && t.it.state.currentJobId == Some(JStr("j"))
      && ResultsSent(t.it.events) == []
    ensures var job := map["id" := JStr("j"), "input" := JInt(1)];
      var it := ProcessIntended(cfg, map[], st, job);
      && ResultsSent(it.events) == [map["output" := JObject(map["x" := JInt(1)])]]
      && it.exit == ExitWith(0)
      && it.state.currentJobId == None
  {
    var job := map["id" := JStr("j"), "input" := JInt(1)];
    assert !Absent(job, "input");
    ReturnedIsNeverSent(cfg, map[], st, None, job);
    ReturnedIsSent(cfg, map[], st, job);
  }

  /** As intended, a handler that does not stream has run_job's return value
      sent once as the final result, nothing streamed. */
  lemma ReturnedIsSent(cfg: WorkerConfig, env: Env, st: State, job: Obj)
    requires "id" in job && !Absent(job, "input") && !cfg.handler(job).Streamed?
    ensures var it := ProcessIntended(cfg, env, st, job);
      && StreamSent(it.events) == []
      && ResultsSent(it.events) == [WithRefresh(cfg, Job.RunJob(cfg.handler(job)).returned)]
      && it.exit == ExitFor(env, WithRefresh(cfg, Job.RunJob(cfg.handler(job)).returned))
  {
  }

  /** The loop as written and as intended agree on every job without input
      and on every job whose handler streams at least one partial. */
  lemma WrittenMatchesIntended(cfg: WorkerConfig, env: Env, st: State, jobStream: Option<Obj>, job: Obj)
    requires "id" in job
    requires Absent(job, "input") || (cfg.handler(job).Streamed? && |cfg.handler(job).partials| > 0)
    ensures Process(cfg, env, st, jobStream, job).it == ProcessIntended(cfg, env, st, job)
  {
    if !Absent(job, "input") {
      var records := Job.RunJob(cfg.handler(job)).yielded;
      assert Last(records) == Job.FinalRecord(cfg.handler(job));
    }
  }
}

=== FILE: worker_state.dfy ===
/** The worker's shared bookkeeping: the current-job-id cell written by
    `set_job_id` and the job list of accepted ids, together with the trace of
    observable steps one request or one loop iteration takes. The module
    behind `set_job_id` and `Jobs` (worker_state.py) is not part of this
    model; the cell is a plain value and the job list a set. */
module WorkerState {
  import opened JsonValue

  /** The current-job-id cell and the job list. */
  datatype State = State(currentJobId: Option<Json>, jobList: set<Json>)

  /** One observable step of a dispatch. `job.run_job` is a generator
      function: calling it only creates the generator, and the handler runs
      when the generator is first advanced. The two are separate steps. */
  datatype Event =
    | SetJobId(id: Option<Json>)   // set_job_id(id)
    | InvokeRunJob                 // run_job(handler, job) is called
    | CallHandler                  // handler(job) runs, inside the generator
    | SendStream(partial: Obj)     // a partial goes to the stream endpoint
    | SendResult(result: Obj)      // the final result goes to the done endpoint

  /** The cell after replaying the `SetJobId` steps of `events` from `cell`. */
  function CellAfter(cell: Option<Json>, events: seq<Event>): Option<Json>
    decreases |events|
  {
    if |events| == 0 then cell
    else match events[|events| - 1]
      case SetJobId(id) => id
      case _ => CellAfter(cell, events[..|events| - 1])
  }

  /** Replaying a trace in two parts is replaying it whole. */
  lemma {:induction false} CellAfterAppend(cell: Option<Json>, a: seq<Event>, b: seq<Event>)
    ensures CellAfter(cell, a + b) == CellAfter(CellAfter(cell, a), b)
    decreases |b|
  {
    if |b| > 0 {
      assert (a + b)[..|a + b| - 1] == a + b[..|b| - 1];
      CellAfterAppend(cell, a, b[..|b| - 1]);
    } else {
      assert a + b == a;
    }
  }

  /** Steps that do not write the cell. */
  predicate KeepsCell(events: seq<Event>) {
    forall k :: 0 <= k < |events| ==> !events[k].SetJobId?
  }

  /** Steps that do not write the cell leave it as it was. */
  lemma {:induction false} CellAfterKept(cell: Option<Json>, a: seq<Event>, q: seq<Event>)
    requires KeepsCell(q)
    ensures CellAfter(cell, a + q) == CellAfter(cell, a)
    decreases |q|
  {
    if |q| > 0 {
      assert (a + q)[..|a + q| - 1] == a + q[..|q| - 1];
      assert (a + q)[|a + q| - 1] == q[|q| - 1];
      CellAfterKept(cell, a, q[..|q| - 1]);
    } else {
      assert a + q == a;
    }
  }

  /** Every `step` in `events` happens while the cell holds `id`. */
  predicate HeldDuring(cell: Option<Json>, events: seq<Event>, id: Json, step: Event) {
    forall i :: 0 <= i < |events| && events[i] == step ==> CellAfter(cell, events[..i]) == Some(id)
  }

  /** The number of times `step` occurs in `events`. */
  function Count(events: seq<Event>, step: Event): nat
    decreases |events|
  {
    if |events| == 0 then 0
    else (if events[0] == step then 1 else 0) + Count(events[1..], step)
  }

  lemma {:induction false} CountAppend(a: seq<Event>, b: seq<Event>, step: Event)
    ensures Count(a + b, step) == Count(a, step) + Count(b, step)
    decreases |a|
  {
    if |a| > 0 {
      assert (a + b)[1..] == a[1..] + b;
      CountAppend(a[1..], b, step);
    } else {
      assert a + b == b;
    }
  }

  /** A step that does not occur is counted zero times. */
  lemma {:induction false} CountAbsent(events: seq<Event>, step: Event)
    requires forall k :: 0 <= k < |events| ==> events[k] != step
    ensures Count(events, step) == 0
    decreases |events|
  {
    if |events| > 0 {
      CountAbsent(events[1..], step);
    }
  }

  /** The dispatch shape `set_job_id(id); body; tail`: when `body` does not
      write the cell and `tail` has no `step`, every `step` happens while the
      cell holds `id`, all of them in `body`, and the cell ends as `tail`
      leaves it starting from `id`. */
  lemma Dispatch(cell: Option<Json>, id: Json, body: seq<Event>, tail: seq<Event>, step: Event)
    requires !step.SetJobId? && KeepsCell(body)
    requires forall k :: 0 <= k < |tail| ==> tail[k] != step
    ensures HeldDuring(cell, [SetJobId(Some(id))] + body + tail, id, step)
    ensures Count([SetJobId(Some(id))] + body + tail, step) == Count(body, step)
    ensures CellAfter(cell, [SetJobId(Some(id))] + body + tail) == CellAfter(Some(id), tail)
  {
    var opening := [SetJobId(Some(id))];
    var events := opening + body + tail;
    assert CellAfter(cell, opening) == Some(id) by {
      assert opening[..0] == [];
    }
    forall i | 0 <= i < |events| && events[i] == step
      ensures CellAfter(cell, events[..i]) == Some(id)
    {
      assert 0 < i <= |body|;
      assert events[..i] == opening + body[..i - 1];
      CellAfterKept(cell, opening, body[..i - 1]);
    }
    CellAfterKept(cell, opening, body);
    CellAfterAppend(cell, opening + body, tail);
    CountAppend(opening + body, tail, step);
    CountAppend(opening, body, step);
    CountAbsent(tail, step);
    assert opening[1..] == [];
  }

  /** The partials sent to the stream endpoint, in order. */
  function StreamSent(events: seq<Event>): seq<Obj>
    decreases |events|
  {
    if |events| == 0 then []
    else (if events[0].SendStream? then [events[0].partial] else []) + StreamSent(events[1..])
  }

  /** The results sent to the done endpoint, in order. */
  function ResultsSent(events: seq<Event>): seq<Obj>
    decreases |events|
  {
    if |events| == 0 then []
    else (if events[0].SendResult? then [events[0].result] else []) + ResultsSent(events[1..])
  }

  /** The stream-endpoint steps for `partials`, in order. */
  function StreamEvents(partials: seq<Obj>): (events: seq<Event>)
    ensures |events| == |partials|
    ensures forall k :: 0 <= k < |events| ==> events[k] == SendStream(partials[k])
  {
    seq(|partials|, k requires 0 <= k < |partials| => SendStream(partials[k]))
  }

  lemma {:induction false} StreamSentAppend(a: seq<Event>, b: seq<Event>)
    ensures StreamSent(a + b) == StreamSent(a) + StreamSent(b)
    decreases |a|
  {
    if |a| > 0 {
      assert (a + b)[1..] == a[1..] + b;
      StreamSentAppend(a[1..], b);
    } else {
      assert a + b == b;
    }
  }

  lemma {:induction false} ResultsSentAppend(a: seq<Event>, b: seq<Event>)
    ensures ResultsSent(a + b) == ResultsSent(a) + ResultsSent(b)
    decreases |a|
  {
    if |a| > 0 {
      assert (a + b)[1..] == a[1..] + b;
      ResultsSentAppend(a[1..], b);
    } else {
      assert a + b == b;
    }
  }

  /** Streaming sends exactly the given partials, in order, and no result. */
  lemma {:induction false} StreamEventsSend(partials: seq<Obj>)
    ensures StreamSent(StreamEvents(partials)) == partials
    ensures ResultsSent(StreamEvents(partials)) == []
    decreases |partials|
  {
    if |partials| > 0 {
      assert StreamEvents(partials)[1..] == StreamEvents(partials[1..]);
      StreamEventsSend(partials[1..]);
    }
  }

  /** Steps that only write the cell, call run_job or run the handler send nothing. */
  lemma {:induction false} QuietSteps(events: seq<Event>)
    requires forall k :: 0 <= k < |events| ==> events[k].SetJobId? || events[k].InvokeRunJob? || events[k].CallHandler?
    ensures ResultsSent(events) == [] && StreamSent(events) == []
    decreases |events|
  {
    if |events| > 0 {
      QuietSteps(events[1..]);
    }
  }

  /** The closing steps of a processed job send its result, once. */
  lemma ClosingSteps(result: Obj)
    ensures ResultsSent([SendResult(result), SetJobId(None)]) == [result]
    ensures StreamSent([SendResult(result), SetJobId(None)]) == []
  {
    var closing := [SendResult(result), SetJobId(None)];
    assert closing[1..] == [SetJobId(None)];
    QuietSteps(closing[1..]);
  }
}
